=== FILE: README.md ===
# A Dafny model of the bookkeeping core of an auto-posting Telegram bot

The bot sells monthly subscriptions. A subscriber pays with a gift card, an
administrator verifies the payment, and from then on a scheduled job posts
videos from an indexed source channel into the subscriber's own channel,
`posts_per_run` at a time, never the same video twice.

This project models the decision logic and bookkeeping of that bot as pure
Dafny functions over an immutable store. It proves the properties the code
relies on.

| module (file) | models |
|---|---|
| `Options` (options.dfy) | `None` and dictionary keys that may be missing |
| `Config` (config.dfy) | `OWNER_ID`, `ADMIN_CHANNEL_ID`, `SOURCE_CHANNEL_ID`, at their default values (0) |
| `Text` (text.dfy) | `str.strip`, ASCII `isdigit`, `int()` on digit strings, `str()` on integers |
| `Database` (database.py) | subscriptions, the content pool, the post history, the settings document |
| `Permissions` (database.py) | administrator accounts and capability flags |
| `SchedulerTasks` (scheduler_tasks.py) | the interval-gated batch job and the expiry job |
| `Payment` (plugins/payment.py) | the onboarding conversation, and the Verify and Reject buttons |
| `AdminSettings` (plugins/admin_settings.py) | `/set_interval` and `/set_posts` |
| `Indexing` (plugins/indexing.py) | turning a source-channel post into a pool entry |

How the store is represented:

- The Mongo collections become one `Store` value:
  - a map of subscriptions keyed by id;
  - a sequence of videos in insertion order;
  - a sequence of post-history lines;
  - an optional settings document whose fields are themselves optional;
  - a map of administrator accounts keyed by user id.
- Mongo ObjectIds become natural numbers drawn from counters kept in the store.
- Listing order is ascending id, which is insertion order.
- `Valid` is the store invariant:
  - every record sits under its own id;
  - a subscription has an expiry date exactly when it is active or expired;
  - video ids and `file_id`s are unique;
  - no subscription's history names a video twice.

How the environment is represented:

- Time is an integer number of seconds, passed in as `now`.
- `update_last_run` reads the clock again after the batch loop. That second reading is the parameter `finish`.
- The outcome of each `send_video` attempt comes from a transport oracle keyed by subscription and attempt number: sent, forbidden, or another error.
- The bot's rights in a channel come from an oracle standing for `get_chat_member`.
- `float()` and `int()` on command arguments are oracles. They return `None` where Python raises `ValueError`.

The main results:

- **Failure isolation.** `SchedulerTasks.RunIsIsolated` proves that the batch loop as written appends exactly what a reference run appends. In the reference run, each subscription's batch is computed alone against the history from before the run. The reference makes several facts immediate:
  - what a subscription receives depends only on its own send outcomes (`JobFailureContained`);
  - no subscription is sent a video twice, within a run or across runs (`JobPreservesValid`);
  - no run adds more than `posts_per_run` lines for any subscription (`JobBatchCap`);
  - a refused channel's owner is alerted, and only such an owner (`JobAlerts`).
- **Channel ids.** In the onboarding conversation, the accepted channel-id text and the parsed id are inverse to each other (`ParseChannelId`, `FormattedChannelId`).
- **Onboarding sessions.** With the intended payment buttons, every handler keeps the sessions well formed (`StepPreservesWellFormed`). In a well-formed session, the PIN step always files the pending subscription (`PinSubmits`).

## Model

| member | source | states |
|---|---|---|
| `Database.AddPendingSubscription` | database.py:27-38 | the new record is pending with no expiry and carries the given user, channel, plan, method and gift card; its id is fresh; the other collections are untouched and `Valid` is kept |
| `Database.FindSubscription` | database.py:40-48 | a record is found exactly when one is stored under that id, and it is that record |
| `Database.ActivateSubscription` | database.py:50-61 | reports true exactly when the id is stored; then the record is active, starts now and expires `days·86400` s later, its other fields and all other records unchanged; an unknown id changes nothing |
| `Database.RejectSubscription` | database.py:63-65 | the record is gone, true exactly when it existed, every other record unchanged |
| `Database.ActiveSubscriptions` | database.py:67-73 | lists only stored active records, in strictly ascending id order (so none twice), and, in a valid store, every stored active record |
| `Database.ActiveBetweenComplete` | database.py:67-73 | every active record whose id is in range is listed |
| `Database.ExpireSubscriptions` | database.py:125-130 | exactly the active records with `expiry_date < now` become expired, every other record is unchanged, and none is left due |
| `Database.ExpireLaterAbsorbs` | database.py:125-130 | a sweep followed by a later (or the same) sweep equals the later sweep alone, so the sweep is idempotent |
| `Database.ExpiredNotListed` | database.py:125-130 | a record the sweep expires is no longer listed as active |
| `Database.AddVideo` | database.py:75-86 | inserts (and reports true) exactly when the `file_id` is new; the new entry carries the given fields after all earlier entries; a duplicate changes nothing; `Valid` is kept |
| `Database.AddVideoTwice` | database.py:75-86 | inserting the same file again is refused and changes nothing |
| `Database.DeleteAllVideos` | database.py:88-93 | the pool is empty, history and id counter are kept, `Valid` is kept |
| `Database.HistoryForAppend` | database.py:99-105 | selecting one subscription's history lines distributes over concatenation |
| `Database.NextVideo` | database.py:95-116 | the result is in the pool and not posted, has the lowest `message_id` among unposted videos, and is absent exactly when every video is posted |
| `Database.GetNextVideoForSub` | database.py:95-116 | a video it returns is in the pool and was never posted to that subscription |
| `Database.NextVideoForSubSpec` | database.py:95-116 | the next video for a subscription never occurs in its history lines, is minimal by `message_id`, and is absent exactly when all are posted |
| `Database.RecordPost` | database.py:118-123 | exactly one line, (subscription, video, now), is appended after the old history, and nothing else changes |
| `Database.RecordPostPosted` | database.py:118-123 | only that subscription's posted set grows, by exactly that video; an unposted video keeps `Valid` |
| `Database.UpdateSettings` | database.py:137-152 | each field given is written, each field not given keeps its value, `last_run` is untouched; all-`None` or a missing document is a no-op |
| `Database.UpdateLastRun` | database.py:154-158 | only `last_run` changes, to the given time; a missing document is left missing |
| `Permissions.AddAdmin` | database.py:169-185 | a new account gets exactly the default flags (only `manage_payments` true); an existing one leaves the store unchanged; always true |
| `Permissions.NewAdminDefaults` | database.py:162-185 | a fresh non-owner account may manage payments and nothing else |
| `Permissions.RemoveAdmin` | database.py:187-189 | the account is gone, true exactly when it existed, others untouched |
| `Permissions.RemovedHasNothing` | database.py:187-245 | after removal a non-owner has no capability and is not an administrator |
| `Permissions.UpdateAdminPermission` | database.py:201-209 | an existing account's flag is set to the value and its other flags kept; an unknown user is not created |
| `Permissions.UpdateThenCheck` | database.py:201-221 | the check then answers the new value for that flag, and every other answer is unchanged |
| `Permissions.CheckAdminPermission` | database.py:211-221 | the owner always passes; for anyone else, a non-account fails and a stored account passes exactly when its flag is set (a missing flag reading as unset) |
| `Permissions.GetAdminsWithPermission` | database.py:223-237 | the owner is always in the set, and every member is the owner or a stored account |
| `Permissions.ListedIffPermitted` | database.py:211-237 | a user is listed for a flag exactly when the check grants it |
| `Permissions.IsUserAdmin` | database.py:239-245 | the owner is an administrator without an account, and a user who is not an administrator is refused every capability |
| `Permissions.PermittedIsAdmin` | database.py:211-245 | anyone granted a capability is an administrator |
| `SchedulerTasks.IntervalElapsed` | scheduler_tasks.py:15-27 | with neither `last_run` nor `interval_hours` stored, the gate opens exactly 24 hours after time 0; a non-positive interval keeps it open from `last_run` on |
| `SchedulerTasks.PostVideos` | scheduler_tasks.py:36-70 | one subscription's inner loop changes nothing but the post history |
| `SchedulerTasks.PostToSubscriptions` | scheduler_tasks.py:34-70 | the outer loop changes nothing but the history and raises at most one alert per subscription |
| `SchedulerTasks.DailyPostJob` | scheduler_tasks.py:6-74 | without settings, or before `interval_hours·3600` s have passed since `last_run` (defaults 0, 24 and 1), nothing changes; otherwise only the history and `last_run := finish` change |
| `SchedulerTasks.ExpiryCheckJob` | scheduler_tasks.py:76-78 | exactly the active records with `expiry_date < now` become expired, every other record is unchanged, none is added or removed, nothing outside the subscriptions changes, `Valid` is kept, and no listed active record is past its expiry |
| `SchedulerTasks.ExpiryJobIdempotent` | scheduler_tasks.py:76-78 | a second run of the expiry job at the same time changes nothing |
| `SchedulerTasks.ExpiryJobListing` | scheduler_tasks.py:76-78 | in a valid store, a record is listed active after the job exactly when it was listed before and was not past its expiry |
| `SchedulerTasks.Batch` | scheduler_tasks.py:36-49 | a batch has at most `n` videos, and the stop is `Completed` exactly when it is full |
| `SchedulerTasks.BatchSound` | scheduler_tasks.py:37-49 | every batch video is from the pool, was unposted, is sent once, and went out on a successful attempt |
| `SchedulerTasks.BatchStopCause` | scheduler_tasks.py:54-70 | a `Denied` or `Failed` stop is caused by a forbidden, respectively other, outcome of the attempt right after the last video sent |
| `SchedulerTasks.BatchGreedy` | scheduler_tasks.py:36-40 | every video of a batch is the next video against the history before the run plus the videos sent earlier in the batch, so none is skipped |
| `SchedulerTasks.BatchPicksLowest` | scheduler_tasks.py:36-40 | every video of a batch has the lowest `message_id` among the pool videos neither posted before the run nor sent earlier in the batch |
| `SchedulerTasks.BatchOrdered` | scheduler_tasks.py:36-49 | a batch goes out in ascending `message_id`, starts from the lowest unposted one, and at each position takes the lowest one still unsent |
| `SchedulerTasks.BatchExhausted` | scheduler_tasks.py:37-40 | a batch that stopped for lack of videos leaves no pool video unposted |
| `SchedulerTasks.FullBatch` | scheduler_tasks.py:36-49 | with every send succeeding, a batch has `min(n, unposted videos)` videos |
| `SchedulerTasks.BatchOwnOutcomes` | scheduler_tasks.py:54-70 | a batch depends on the transport only through its own subscription's outcomes |
| `SchedulerTasks.PostVideosIsBatch` | scheduler_tasks.py:36-70 | the inner loop appends exactly the reference batch's lines and stops for the same reason |
| `SchedulerTasks.RunIsIsolated` | scheduler_tasks.py:34-70 | the outer loop over distinct subscriptions equals the reference run, in history and in alerts |
| `SchedulerTasks.IsolatedFor` | scheduler_tasks.py:34-49 | in the reference run a listed subscription gets exactly its own batch, an unlisted one nothing |
| `SchedulerTasks.IsolatedNoRepeat` | scheduler_tasks.py:44-49 | the reference run keeps the history free of repeats |
| `SchedulerTasks.IsolatedAlerts` | scheduler_tasks.py:54-65 | an alert is raised for a subscription exactly when its batch was refused |
| `SchedulerTasks.ListedIffActive` | scheduler_tasks.py:31-34 | in a valid store the job visits a subscription exactly when it is stored and active |
| `SchedulerTasks.JobIsIsolated` | scheduler_tasks.py:31-73 | a gate-passing run appends the reference run's lines over the active subscriptions and raises its alerts |
| `SchedulerTasks.JobAddsFor` | scheduler_tasks.py:11-49 | a run adds, for each subscription, its own batch if it is active and nothing otherwise; nothing at all when the gate is closed |
| `SchedulerTasks.JobBatchCap` | scheduler_tasks.py:34-49 | a run adds at most `posts_per_run` lines per subscription, and none for an inactive one |
| `SchedulerTasks.JobPreservesValid` | scheduler_tasks.py:37-49 | a run keeps the store valid, so no subscription is ever sent a video twice |
| `SchedulerTasks.JobFailureContained` | scheduler_tasks.py:54-70 | what a subscription receives does not depend on the send outcomes of other subscriptions |
| `SchedulerTasks.JobFullBatch` | scheduler_tasks.py:36-49 | when all its sends succeed, an active subscription receives `min(posts_per_run, unposted videos)` videos |
| `SchedulerTasks.JobAlerts` | scheduler_tasks.py:54-65 | the alerts are exactly those for active subscriptions whose channel refused the bot |
| `SchedulerTasks.JobPollingIdempotent` | scheduler_tasks.py:15-27 | a run started less than the interval after the previous one finished changes nothing |
| `Text.StripLeft` | plugins/payment.py:47 | the result is a suffix, everything cut is whitespace, and it does not start with whitespace |
| `Text.StripRight` | plugins/payment.py:47 | the result is a prefix, everything cut is whitespace, and it does not end with whitespace |
| `Text.Strip` | plugins/payment.py:47 | the result is no longer than the input and neither starts nor ends with whitespace |
| `Text.StripTrimsInfix` | plugins/payment.py:47 | the result is the infix of the input starting at some offset, and everything cut on either side is whitespace |
| `Text.StripIdempotent` | plugins/payment.py:47 | stripping twice equals stripping once |
| `Text.IntToString` | plugins/indexing.py:24 | the text starts with `-` exactly for negative numbers |
| `Text.DigitsOfNat` | plugins/payment.py:52-67 | reading back a formatted natural number gives the number |
| `Text.NatOfDigits` | plugins/payment.py:49-67 | formatting the value of a digit string without a leading zero gives the string |
| `Payment.ParseChannelId` | plugins/payment.py:49-67 | an accepted text is read as a negative id whose decimal form is the text itself |
| `Payment.FormattedChannelId` | plugins/payment.py:49-67 | an id whose decimal form is accepted is read back as itself |
| `Payment.ChannelOf` | plugins/payment.py:47-55 | a channel is named exactly when the stripped text is `-100` plus digits or the message was forwarded from a chat; typed text takes precedence |
| `Payment.AskChannel` | plugins/payment.py:24-35 | the user's session is (re)started waiting for a channel with only `plan = "monthly"`; other sessions are untouched |
| `Payment.ChannelText` | plugins/payment.py:46-83 | the session moves on exactly when a channel is named and the bot may post there; it then stores the channel and keeps the rest; otherwise nothing changes |
| `Payment.CodeText` | plugins/payment.py:85-90 | the stripped text becomes the code and the session waits for the PIN |
| `Payment.PinText` | plugins/payment.py:92-133 | with channel and code known, a pending subscription with the gift card is filed, the store is exactly the result of that insertion, the admin channel is sent a notice with its id, the user, the channel, the plan, the method (`Gift Card` when unset), the code and the stripped PIN, and the session ends; otherwise the PIN is stored and nothing is filed |
| `Payment.HandleTextInput` | plugins/payment.py:37-133 | text without a session, or while buttons are awaited, changes nothing; text waiting for a channel, a code or a PIN is handled by the channel, code or PIN step respectively; no other user's session changes; only a submission touches the store |
| `Payment.PayMethod` | plugins/payment.py:135-153 | an existing session, in any state, moves to waiting for the code with the button's method; without a session, none is created |
| `Payment.PayMethodSkipsChannel` | plugins/payment.py:135-153 | pressing a payment button before a channel is verified leads, after code and PIN, to a failing submission that files nothing and repeats for every later PIN |
| `Payment.PayMethodBreaksWellFormed` | plugins/payment.py:135-153 | that press turns a well-formed session into one without a channel |
| `Payment.PayMethodGuarded` | plugins/payment.py:135-153 | a button acts only on a session whose channel is known; any other press changes nothing |
| `Payment.AdminVerify` | plugins/payment.py:157-198 | a missing or active subscription is left alone; a pending or expired one becomes active, starting now and expiring 30 days later, with its other fields kept; only that record changes in the store |
| `Payment.VerifyTwice` | plugins/payment.py:157-175 | a second Verify answers "already verified" and changes nothing |
| `Payment.AdminReject` | plugins/payment.py:200-223 | a missing subscription is reported; an existing one is deleted whatever its status; nothing else in the store changes |
| `Payment.RejectThenVerify` | plugins/payment.py:157-209 | after Reject, Verify finds nothing |
| `Payment.Step` | plugins/payment.py:24-223 | administrator buttons never touch sessions; user events touch only their own user's session; plan and payment buttons never touch the store |
| `Payment.OneSessionWellFormed` | plugins/payment.py:24-153 | replacing one session by a well-formed one keeps all sessions well formed |
| `Payment.TextSessionWellFormed` | plugins/payment.py:37-133 | the text handler leaves the user's session well formed |
| `Payment.TextKeepsWellFormed` | plugins/payment.py:37-133 | the text handler keeps all sessions well formed and the store valid |
| `Payment.GuardedKeepsWellFormed` | plugins/payment.py:135-153 | the guarded buttons keep all sessions well formed |
| `Payment.StepPreservesWellFormed` | plugins/payment.py:24-223 | every handler keeps the sessions well formed and the store valid |
| `Payment.PinSubmits` | plugins/payment.py:92-106 | in a well-formed session the PIN step always files a pending subscription for that user, channel and gift card, and ends the session |
| `AdminSettings.SetInterval` | plugins/admin_settings.py:23-39 | only the owner is served; a missing argument, an unreadable number or hours `<= 0` change nothing; otherwise only `interval_hours` is written |
| `AdminSettings.SetPostsCount` | plugins/admin_settings.py:41-57 | the same checks for an integer count; only `posts_per_run` is written |
| `AdminSettings.SetIntervalReachesJob` | plugins/admin_settings.py:30-35 | after a successful command the batch job's gate uses the new interval; otherwise the interval is unchanged |
| `AdminSettings.SetPostsReachesJob` | plugins/admin_settings.py:48-53 | after a successful command the batch job's batch size is the new count; otherwise it is unchanged |
| `AdminSettings.SettingsCommandsIdempotent` | plugins/admin_settings.py:23-57 | repeating a command gives the same settings as issuing it once |
| `Indexing.ChosenMedia` | plugins/indexing.py:9-12 | the video is taken when present, else the document; nothing exactly when neither is attached |
| `Indexing.StoredName` | plugins/indexing.py:24 | a non-empty file name is kept; a missing or empty one becomes `Video <message id>` |
| `Indexing.IndexVideo` | plugins/indexing.py:7-31 | a post without media adds nothing; otherwise an entry with the media's `file_id`, the stored name, the post's id as `message_id` and type `video` is added exactly when the file is new; `Valid` is kept |
| `Indexing.IndexTwice` | plugins/indexing.py:23-26 | indexing the same post again adds nothing |
| `Indexing.MimeTypeIgnored` | plugins/indexing.py:19-21 | a document's MIME type does not affect indexing |
| `Indexing.IndexedEntry` | plugins/indexing.py:23-26 | after indexing, the pool holds an entry for the file, carrying the post's id when this call added it |

## Left out

- Telegram I/O is not modelled: message texts, keyboards, `edit_text`, and the user and channel notifications in `admin_verify` and `admin_reject`, whose failures the code swallows. Only the request sent to the admin channel is modelled, as a returned value.
- `show_plans` and `show_settings` are left out: they only display a menu or the current settings.
- `asyncio.sleep(2)` between sends is a rate-limit delay and is left out.
- Database failures are not modelled. A failing `get_active_subscriptions` or `get_next_video_for_sub` would abort the batch job before `last_run` is written.
- `init_db` (index creation and the initial settings document) is left out. The unique `file_id` index is modelled by `AddVideo`'s duplicate check.
- `get_all_admins` and `get_admin_details` are plain reads. They are not among the modelled operations.
- Handler routing filters are modelled only where a handler's effect depends on them: the owner-only filter of the settings commands. Private-text routing and the source-channel filter of the indexer (posts from `Config.SourceChannelId` only) are assumed.
- Ids are abstract. Two mismatches are therefore not modelled:
  - `admin_verify` calls `int()` on a hex ObjectId string, which raises or fails the lookup;
  - `handle_text_input` passes `gc_code`/`gc_pin` to `add_pending_subscription`, whose parameters are `payment_method`/`payment_details`, so the call raises `TypeError`.

  The model performs the evidently intended calls. The method is `data.get("method", "Gift Card")` and the details are the code and PIN.
- `admin_verify` checks no permission and re-activates expired subscriptions. Both are modelled as written.
- No rejected status is ever written: reject deletes the record.
- `auto_index` and `delete_after_forward` are stored but never read by the modelled code.
- `delete_all_videos` keeps the history and does not reuse ids. Re-indexed files therefore get new ids and would be posted again.
- Time and numbers are simplified:
  - time is whole seconds;
  - every history line of one run is stamped with the run's `now`, whereas `record_post` reads the clock for each post. Nothing reads `posted_at`, so no property depends on it;
  - `interval_hours` is a real number, so NaN and infinity (which `float()` accepts and `hours <= 0` lets through) are not modelled.
- Text.IsDigit: the model accepts ASCII digits only. Python's `isdigit()` also accepts other Unicode digits, and superscript digits such as `²`, which `int()` rejects. So `-100²` passes the format check at plugins/payment.py:49, `int()` then raises inside the `try` at lines 57-64, and the user is told the bot cannot access the channel. The model instead rejects the format and falls back to the forwarded chat (`Payment.ChannelOf`). Unicode decimal digits other than ASCII pass both checks in the source and are rejected by the model.
- The batch job's notification to a refused channel's owner is modelled as an `Alert` value. Whether that message is delivered is not modelled.
- Overlapping runs of the scheduler are a concurrency concern and are left out.

## Findings

| source | as written | input that shows it | evidently intended | confidence | as-written member | corrected member |
|---|---|---|---|---|---|---|
| plugins/payment.py:135-153 | the payment buttons move any existing session to waiting for the gift-card code, also one still waiting for its channel | press the monthly plan, then a payment button from an earlier message, then send a code and a PIN: reading `data["channel_id"]` raises `KeyError`, nothing is filed, and the session stays waiting for the PIN, so every later PIN raises too | the buttons act only once a channel has been verified | high (not executed) | `Payment.PayMethodSkipsChannel` | `Payment.PayMethodGuarded` |

The conversation model `Payment.Step` uses the corrected buttons. `Payment.StepPreservesWellFormed` and `Payment.PinSubmits` prove that under them the PIN step always files the subscription.

=== FILE: admin_settings.dfy ===
/** plugins/admin_settings.py: the owner's `/set_interval` and `/set_posts`
    commands. Each checks its argument and then patches one field of the
    settings document. `command` is the message split into words, the
    command itself first; Python's `float()` and `int()` are inputs that
    give `None` where they would raise `ValueError`. */
module AdminSettings {
  import opened Options
  import opened Database
  import Config
  import SchedulerTasks

  datatype SettingsReply = NotHandled | Usage | InvalidNumber | NotPositive | Updated

  /** `/set_interval <hours>`: only the owner's command is handled; a
      missing argument, an unreadable number or hours `<= 0` are answered
      and change nothing; otherwise only `interval_hours` is written. */
  function SetInterval(s: Store, sender: UserId, command: seq<string>, parseFloat: string -> Option<real>): (r: (Store, SettingsReply))
    ensures sender != Config.OwnerId ==> r == (s, NotHandled)
    ensures sender == Config.OwnerId && |command| < 2 ==> r == (s, Usage)
    ensures sender == Config.OwnerId && |command| >= 2 && parseFloat(command[1]).None? ==> r == (s, InvalidNumber)
    ensures r.1 == Updated <==> sender == Config.OwnerId && |command| >= 2 && parseFloat(command[1]).Some? && parseFloat(command[1]).value > 0.0
    ensures r.1 != Updated ==> r.0 == s
    ensures r.1 == Updated && s.settings.Some? ==> r.0 == s.(settings := Some(s.settings.value.(intervalHours := parseFloat(command[1]))))
    ensures s.settings.None? ==> r.0 == s
  {
    if sender != Config.OwnerId then (s, NotHandled)
    else if |command| < 2 then (s, Usage)
    else
      match parseFloat(command[1])
      case None => (s, InvalidNumber)
      case Some(hours) =>
        if hours <= 0.0 then (s, NotPositive)
        else (UpdateSettings(s, None, Some(hours), None, None), Updated)
  }

  /** `/set_posts <number>`: the same checks for an integer count; only
      `posts_per_run` is written. */
  function SetPostsCount(s: Store, sender: UserId, command: seq<string>, parseInt: string -> Option<int>): (r: (Store, SettingsReply))
    ensures sender != Config.OwnerId ==> r == (s, NotHandled)
    ensures sender == Config.OwnerId && |command| < 2 ==> r == (s, Usage)
    ensures sender == Config.OwnerId && |command| >= 2 && parseInt(command[1]).None? ==> r == (s, InvalidNumber)
    ensures r.1 == Updated <==> sender == Config.OwnerId && |command| >= 2 && parseInt(command[1]).Some? && parseInt(command[1]).value > 0
    ensures r.1 != Updated ==> r.0 == s
    ensures r.1 == Updated && s.settings.Some? ==> r.0 == s.(settings := Some(s.settings.value.(postsPerRun := parseInt(command[1]))))
    ensures s.settings.None? ==> r.0 == s
  {
    if sender != Config.OwnerId then (s, NotHandled)
    else if |command| < 2 then (s, Usage)
    else
      match parseInt(command[1])
      case None => (s, InvalidNumber)
      case Some(count) =>
        if count <= 0 then (s, NotPositive)
        else (UpdateSettings(s, Some(count), None, None, None), Updated)
  }

  /** After a successful `/set_interval h` the batch job's gate waits `h`
      hours; a rejected command leaves the interval the job reads as it was. */
  lemma SetIntervalReachesJob(s: Store, command: seq<string>, parseFloat: string -> Option<real>)
    requires s.settings.Some?
    ensures var r := SetInterval(s, Config.OwnerId, command, parseFloat);
            && r.0.settings.Some?
            && (r.1 == Updated ==> SchedulerTasks.IntervalHours(r.0.settings.value) == parseFloat(command[1]).value > 0.0)
            && (r.1 != Updated ==> SchedulerTasks.IntervalHours(r.0.settings.value) == SchedulerTasks.IntervalHours(s.settings.value))
  {
  }

  /** After a successful `/set_posts n` every run sends each subscription at
      most `n` videos: the job's batch size is `n`. */
  lemma SetPostsReachesJob(s: Store, command: seq<string>, parseInt: string -> Option<int>)
    requires s.settings.Some?
    ensures var r := SetPostsCount(s, Config.OwnerId, command, parseInt);
            && r.0.settings.Some?
            && (r.1 == Updated ==> SchedulerTasks.BatchSize(r.0.settings.value) == parseInt(command[1]).value > 0)
            && (r.1 != Updated ==> SchedulerTasks.BatchSize(r.0.settings.value) == SchedulerTasks.BatchSize(s.settings.value))
  {
  }

  /** Repeating a command gives the same settings as issuing it once. */
  lemma SettingsCommandsIdempotent(s: Store, sender: UserId, command: seq<string>,
                                   parseFloat: string -> Option<real>, parseInt: string -> Option<int>)
    ensures var once := SetInterval(s, sender, command, parseFloat).0;
            SetInterval(once, sender, command, parseFloat).0 == once
    ensures var once := SetPostsCount(s, sender, command, parseInt).0;
            SetPostsCount(once, sender, command, parseInt).0 == once
  {
  }
}

=== FILE: config.dfy ===
/** Deployment constants read from the environment in config.py. The model
    fixes them to the defaults used there when the variable is unset. */
module Config {

  /** The bot owner: implicitly holds every admin capability. */
  const OwnerId: int := 0

  /** The chat that receives new subscription requests for approval. */
  const AdminChannelId: int := 0

  /** The chat whose media messages are indexed into the content pool. */
  const SourceChannelId: int := 0
}

=== FILE: database.dfy ===
/** The persistent store of database.py as an immutable value: each
    operation of that file is a pure function from a store (and its
    arguments) to the new store and the value the coroutine returns. The
    administrator part of database.py lives in module Permissions. */
module Database {
  import opened Options

  type UserId = int
  type ChatId = int
  /** Stands for the document `_id` of a subscription (an ObjectId). */
  type SubId = nat
  /** Stands for the document `_id` of a video (an ObjectId). */
  type VideoId = nat
  /** Seconds since the epoch. */
  type Time = int

  const SecondsPerDay: int := 24 * 60 * 60
  const DefaultDurationDays: int := 30

  /** The values the code writes into a subscription's `status`. */
  datatype Status = Pending | Active | Expired

  /** The payment proof collected by the onboarding dialog. */
  datatype GiftCard = GiftCard(code: string, pin: string)

  datatype Subscription = Subscription(
    id: SubId,
    userId: UserId,
    channelId: ChatId,
    planType: string,
    paymentMethod: string,
    paymentDetails: GiftCard,
    status: Status,
    startDate: Time,
    expiryDate: Option<Time>)

  /** A content-pool entry; `messageId` is the ordering key. */
  datatype Video = Video(id: VideoId, fileId: string, fileName: string, messageId: int, mediaType: string)

  /** One line of the post history: `videoId` was sent to subscription `subId`. */
  datatype PostRecord = PostRecord(subId: SubId, videoId: VideoId, postedAt: Time)

  /** The `config` settings document; every field may be missing. */
  datatype Settings = Settings(
    postsPerRun: Option<int>,
    intervalHours: Option<real>,
    deleteAfterForward: Option<bool>,
    autoIndex: Option<bool>,
    lastRun: Option<Time>)

  /** An administrator document (its `user_id` is the key of `Store.admins`). */
  datatype Admin = Admin(addedAt: Time, addedBy: Option<UserId>, permissions: map<string, bool>)

  /** All collections. Fresh document ids are drawn from the two counters. */
  datatype Store = Store(
    subscriptions: map<SubId, Subscription>,
    nextSubId: SubId,
    videos: seq<Video>,
    nextVideoId: VideoId,
    history: seq<PostRecord>,
    settings: Option<Settings>,
    admins: map<UserId, Admin>)

  // ---------------------------------------------------------------------
  // Invariants

  /** A subscription has an expiry date exactly when it has been activated. */
  predicate WellFormedSubscription(sub: Subscription) {
    sub.expiryDate.Some? <==> (sub.status == Active || sub.status == Expired)
  }

  predicate SubscriptionsValid(s: Store) {
    forall k | k in s.subscriptions ::
      s.subscriptions[k].id == k && k < s.nextSubId && WellFormedSubscription(s.subscriptions[k])
  }

  /** Video ids are fresh and distinct; `file_id` is unique (the unique index). */
  predicate PoolValid(videos: seq<Video>, nextVideoId: VideoId) {
    && (forall i | 0 <= i < |videos| :: videos[i].id < nextVideoId)
    && (forall i, j | 0 <= i < j < |videos| :: videos[i].id != videos[j].id && videos[i].fileId != videos[j].fileId)
  }

  /** No video appears twice in one subscription's post history. */
  predicate NoRepeat(h: seq<PostRecord>) {
    forall i, j | 0 <= i < j < |h| :: h[i].subId == h[j].subId ==> h[i].videoId != h[j].videoId
  }

  predicate Valid(s: Store) {
    SubscriptionsValid(s) && PoolValid(s.videos, s.nextVideoId) && NoRepeat(s.history)
  }

  // ---------------------------------------------------------------------
  // Subscriptions

  /** Inserts a new subscription request and returns its fresh id. */
  function AddPendingSubscription(s: Store, userId: UserId, channelId: ChatId, planType: string,
                                  paymentMethod: string, paymentDetails: GiftCard, now: Time): (r: (Store, SubId))
    ensures r.1 in r.0.subscriptions
    ensures r.0.subscriptions[r.1].status == Pending && r.0.subscriptions[r.1].expiryDate == None
    ensures r.0.subscriptions[r.1].userId == userId && r.0.subscriptions[r.1].channelId == channelId
    ensures r.0.subscriptions[r.1].planType == planType && r.0.subscriptions[r.1].startDate == now
    ensures r.0.subscriptions[r.1].paymentMethod == paymentMethod && r.0.subscriptions[r.1].paymentDetails == paymentDetails
    ensures Valid(s) ==> r.1 !in s.subscriptions && r.0.subscriptions - {r.1} == s.subscriptions
    ensures r.0.videos == s.videos && r.0.history == s.history && r.0.settings == s.settings && r.0.admins == s.admins
    ensures Valid(s) ==> Valid(r.0)
  {
    var id := s.nextSubId;
    var sub := Subscription(id, userId, channelId, planType, paymentMethod, paymentDetails, Pending, now, None);
    (s.(subscriptions := s.subscriptions[id := sub], nextSubId := id + 1), id)
  }

  /** `get_subscription`: the record with that id, if any. */
  function FindSubscription(s: Store, id: SubId): (r: Option<Subscription>)
    ensures r.Some? <==> id in s.subscriptions
    ensures r.Some? ==> r.value == s.subscriptions[id]
  {
    if id in s.subscriptions then Some(s.subscriptions[id]) else None
  }

  /** Marks a subscription active for `durationDays` counted from `now`,
      whatever its previous status; reports whether a record matched. */
  function ActivateSubscription(s: Store, id: SubId, durationDays: int, now: Time): (r: (Store, bool))
    ensures r.1 <==> id in s.subscriptions
    ensures !r.1 ==> r.0 == s
    ensures r.1 ==> (&& id in r.0.subscriptions
                     && r.0.subscriptions[id].status == Active
                     && r.0.subscriptions[id].startDate == now
                     && r.0.subscriptions[id].expiryDate == Some(now + durationDays * SecondsPerDay)
                     && r.0.subscriptions[id].(status := s.subscriptions[id].status,
                                               startDate := s.subscriptions[id].startDate,
                                               expiryDate := s.subscriptions[id].expiryDate) == s.subscriptions[id])
    ensures r.0.subscriptions.Keys == s.subscriptions.Keys
    ensures forall k | k in s.subscriptions && k != id :: r.0.subscriptions[k] == s.subscriptions[k]
    ensures r.0 == s.(subscriptions := r.0.subscriptions)
    ensures Valid(s) ==> Valid(r.0)
  {
    if id in s.subscriptions then
      var sub := s.subscriptions[id].(status := Active, startDate := now,
                                      expiryDate := Some(now + durationDays * SecondsPerDay));
      (s.(subscriptions := s.subscriptions[id := sub]), true)
    else
      (s, false)
  }

  /** Deletes a subscription outright; reports whether one was deleted. */
  function RejectSubscription(s: Store, id: SubId): (r: (Store, bool))
    ensures r.1 <==> id in s.subscriptions
    ensures id !in r.0.subscriptions
    ensures forall k | k != id :: (k in r.0.subscriptions <==> k in s.subscriptions)
    ensures forall k | k in r.0.subscriptions :: r.0.subscriptions[k] == s.subscriptions[k]
    ensures r.0 == s.(subscriptions := r.0.subscriptions)
    ensures Valid(s) ==> Valid(r.0)
  {
    (s.(subscriptions := s.subscriptions - {id}), id in s.subscriptions)
  }

  /** The active subscriptions with ids in `[from, to)`, by ascending id. */
  function ActiveBetween(subs: map<SubId, Subscription>, from: nat, to: nat): (r: seq<Subscription>)
    decreases if from <= to then to - from else 0
    ensures forall i | 0 <= i < |r| :: r[i].id in subs && subs[r[i].id] == r[i] && r[i].status == Active
    ensures forall i | 0 <= i < |r| :: from <= r[i].id < to
    ensures forall i, j | 0 <= i < j < |r| :: r[i].id < r[j].id
  {
    if from >= to then []
    else
      var here := if from in subs && subs[from].status == Active && subs[from].id == from then [subs[from]] else [];
      here + ActiveBetween(subs, from + 1, to)
  }

  /** Membership in `ActiveBetween`. */
  lemma {:induction false} ActiveBetweenComplete(subs: map<SubId, Subscription>, from: nat, to: nat, k: SubId)
    requires k in subs && subs[k].id == k && subs[k].status == Active && from <= k < to
    ensures subs[k] in ActiveBetween(subs, from, to)
    decreases k - from as int
  {
    if k > from {
      ActiveBetweenComplete(subs, from + 1, to, k);
    }
  }

  /** `get_active_subscriptions`: every stored active subscription, each
      once, in insertion (ascending id) order. */
  function ActiveSubscriptions(s: Store): (r: seq<Subscription>)
    ensures forall i | 0 <= i < |r| :: r[i].id in s.subscriptions && s.subscriptions[r[i].id] == r[i] && r[i].status == Active
    ensures forall i, j | 0 <= i < j < |r| :: r[i].id < r[j].id
    ensures SubscriptionsValid(s) ==>
      forall k | k in s.subscriptions && s.subscriptions[k].status == Active :: s.subscriptions[k] in r
  {
    var r := ActiveBetween(s.subscriptions, 0, s.nextSubId);
    if SubscriptionsValid(s) then
      assert forall k | k in s.subscriptions && s.subscriptions[k].status == Active :: s.subscriptions[k] in r by {
        forall k | k in s.subscriptions && s.subscriptions[k].status == Active
          ensures s.subscriptions[k] in r
        {
          ActiveBetweenComplete(s.subscriptions, 0, s.nextSubId, k);
        }
      }
      r
    else
      r
  }

  /** A subscription the expiry sweep has to close: active and past its expiry
      date. A missing expiry date never compares below `now`. */
  predicate DueForExpiry(sub: Subscription, now: Time) {
    sub.status == Active && sub.expiryDate.Some? && sub.expiryDate.value < now
  }

  function Sweep(sub: Subscription, now: Time): Subscription {
    if DueForExpiry(sub, now) then sub.(status := Expired) else sub
  }

  /** `expire_subscriptions`: exactly the subscriptions due at `now` become
      expired; nothing else in the store changes. */
  function ExpireSubscriptions(s: Store, now: Time): (r: Store)
    ensures r == s.(subscriptions := r.subscriptions)
    ensures r.subscriptions.Keys == s.subscriptions.Keys
    ensures forall k | k in s.subscriptions && DueForExpiry(s.subscriptions[k], now) ::
      r.subscriptions[k] == s.subscriptions[k].(status := Expired)
    ensures forall k | k in s.subscriptions && !DueForExpiry(s.subscriptions[k], now) ::
      r.subscriptions[k] == s.subscriptions[k]
    ensures forall k | k in r.subscriptions :: !DueForExpiry(r.subscriptions[k], now)
    ensures Valid(s) ==> Valid(r)
  {
    s.(subscriptions := map k | k in s.subscriptions :: Sweep(s.subscriptions[k], now))
  }

  /** Sweeping at `t1` and again at a later `t2` is the same as sweeping once
      at `t2`; with `t1 == t2` this is idempotence. */
  lemma ExpireLaterAbsorbs(s: Store, t1: Time, t2: Time)
    requires t1 <= t2
    ensures ExpireSubscriptions(ExpireSubscriptions(s, t1), t2) == ExpireSubscriptions(s, t2)
  {
    var a := ExpireSubscriptions(ExpireSubscriptions(s, t1), t2);
    var b := ExpireSubscriptions(s, t2);
    assert a.subscriptions == b.subscriptions by {
      forall k | k in s.subscriptions
        ensures a.subscriptions[k] == b.subscriptions[k]
      {
        var sub := s.subscriptions[k];
        if DueForExpiry(sub, t1) {
          assert DueForExpiry(sub, t2);
        }
      }
    }
  }

  /** After a sweep at `now`, a subscription the sweep expires is no longer
      listed as active. */
  lemma ExpiredNotListed(s: Store, now: Time, k: SubId)
    requires k in s.subscriptions && s.subscriptions[k].status == Active
    requires DueForExpiry(s.subscriptions[k], now)
    ensures ExpireSubscriptions(s, now).subscriptions[k].status == Expired
    ensures forall i | 0 <= i < |ActiveSubscriptions(ExpireSubscriptions(s, now))| ::
      ActiveSubscriptions(ExpireSubscriptions(s, now))[i].id != k
  {
  }

  // ---------------------------------------------------------------------
  // Content pool

  predicate HasFile(videos: seq<Video>, fileId: string) {
    exists i | 0 <= i < |videos| :: videos[i].fileId == fileId
  }

  /** `add_video`: inserts a new pool entry unless its `file_id` is already
      present, in which case the unique index rejects it and nothing changes. */
  function AddVideo(s: Store, fileId: string, fileName: string, messageId: int, mediaType: string): (r: (Store, bool))
    ensures r.1 <==> !HasFile(s.videos, fileId)
    ensures !r.1 ==> r.0 == s
    ensures r.1 ==> |r.0.videos| == |s.videos| + 1 && r.0.videos[..|s.videos|] == s.videos
    ensures r.1 ==> var v := r.0.videos[|s.videos|];
                    v.fileId == fileId && v.fileName == fileName && v.messageId == messageId && v.mediaType == mediaType
    ensures HasFile(r.0.videos, fileId)
    ensures r.0 == s.(videos := r.0.videos, nextVideoId := r.0.nextVideoId)
    ensures Valid(s) ==> Valid(r.0)
  {
    if HasFile(s.videos, fileId) then (s, false)
    else
      var v := Video(s.nextVideoId, fileId, fileName, messageId, mediaType);
      var r := s.(videos := s.videos + [v], nextVideoId := s.nextVideoId + 1);
      assert r.videos[|s.videos|] == v;
      (r, true)
  }

  /** Adding the same file twice: the second insertion is refused and changes nothing. */
  lemma AddVideoTwice(s: Store, fileId: string, name1: string, msg1: int, name2: string, msg2: int, kind: string)
    ensures var first := AddVideo(s, fileId, name1, msg1, kind).0;
            AddVideo(first, fileId, name2, msg2, kind) == (first, false)
  {
  }

  /** `delete_all_videos`: empties the pool; the post history is kept and
      the id counter is not reset, so later entries get ids never posted. */
  function DeleteAllVideos(s: Store): (r: (Store, bool))
    ensures r.1 && r.0.videos == []
    ensures r.0 == s.(videos := [])
    ensures Valid(s) ==> Valid(r.0)
  {
    (s.(videos := []), true)
  }

  // ---------------------------------------------------------------------
  // Post history and next-video selection

  /** The ids of the videos already posted to subscription `sid`. */
  function Posted(h: seq<PostRecord>, sid: SubId): set<VideoId> {
    set k | 0 <= k < |h| && h[k].subId == sid :: h[k].videoId
  }

  /** The post-history lines of subscription `sid`, in order. */
  function HistoryFor(h: seq<PostRecord>, sid: SubId): (r: seq<PostRecord>)
    ensures forall k | 0 <= k < |r| :: r[k].subId == sid && r[k] in h
    ensures |r| <= |h|
  {
    if |h| == 0 then [] else (if h[0].subId == sid then [h[0]] else []) + HistoryFor(h[1..], sid)
  }

  /** Selecting one subscription's lines distributes over concatenation. */
  lemma {:induction false} HistoryForAppend(a: seq<PostRecord>, b: seq<PostRecord>, sid: SubId)
    ensures HistoryFor(a + b, sid) == HistoryFor(a, sid) + HistoryFor(b, sid)
  {
    if |a| == 0 {
      assert a + b == b;
    } else {
      assert (a + b)[1..] == a[1..] + b;
      HistoryForAppend(a[1..], b, sid);
    }
  }

  /** The first video, in pool order, among those with the lowest
      `messageId` whose id is not in `posted`. */
  function NextVideo(videos: seq<Video>, posted: set<VideoId>): (r: Option<Video>)
    ensures r.Some? ==> r.value in videos && r.value.id !in posted
    ensures r.Some? ==> forall w | w in videos && w.id !in posted :: r.value.messageId <= w.messageId
    ensures r.None? <==> forall w | w in videos :: w.id in posted
  {
    if |videos| == 0 then None
    else
      var rest := NextVideo(videos[1..], posted);
      var v := videos[0];
      if v.id in posted then rest
      else if rest.Some? && rest.value.messageId < v.messageId then rest
      else Some(v)
  }

  /** `get_next_video_for_sub`: the next video for `sid` against its post history. */
  function GetNextVideoForSub(s: Store, sid: SubId): (r: Option<Video>)
    ensures r.Some? ==> r.value in s.videos && r.value.id !in Posted(s.history, sid)
  {
    NextVideo(s.videos, Posted(s.history, sid))
  }

  /** The next video for a subscription was never posted to it and has the
      lowest `message_id` among those that were not; there is none exactly
      when every video of the pool has been posted to it. */
  lemma NextVideoForSubSpec(s: Store, sid: SubId)
    ensures var r := GetNextVideoForSub(s, sid);
            && (r.Some? ==> r.value in s.videos)
            && (r.Some? ==> forall k | 0 <= k < |s.history| && s.history[k].subId == sid :: s.history[k].videoId != r.value.id)
            && (r.Some? ==> forall w | w in s.videos && w.id !in Posted(s.history, sid) :: r.value.messageId <= w.messageId)
            && (r.None? <==> forall w | w in s.videos :: w.id in Posted(s.history, sid))
  {
  }

  /** `record_post`: appends one history line and changes nothing else. */
  function RecordPost(s: Store, sid: SubId, vid: VideoId, now: Time): (r: Store)
    ensures r == s.(history := r.history)
    ensures |r.history| == |s.history| + 1 && r.history[..|s.history|] == s.history
    ensures r.history[|s.history|] == PostRecord(sid, vid, now)
  {
    s.(history := s.history + [PostRecord(sid, vid, now)])
  }

  /** Recording a post grows only `sid`'s posted set, by exactly `vid`; when
      `vid` was new to `sid` the store stays free of repeats. */
  lemma RecordPostPosted(s: Store, sid: SubId, vid: VideoId, now: Time)
    ensures var r := RecordPost(s, sid, vid, now);
            && Posted(r.history, sid) == Posted(s.history, sid) + {vid}
            && (forall other | other != sid :: Posted(r.history, other) == Posted(s.history, other))
            && (Valid(s) && vid !in Posted(s.history, sid) ==> Valid(r))
  {
    var h := RecordPost(s, sid, vid, now).history;
    forall other ensures Posted(h, other) == Posted(s.history, other) + (if other == sid then {vid} else {}) {
      assert h[|s.history|].videoId == vid;
      forall x | x in Posted(s.history, other) ensures x in Posted(h, other) {
        var k :| 0 <= k < |s.history| && s.history[k].subId == other && s.history[k].videoId == x;
        assert h[k] == s.history[k];
      }
    }
  }

  // ---------------------------------------------------------------------
  // Settings

  /** `update_settings`: writes exactly the fields given (not None); a call
      with no field given, or when the settings document is missing, is a no-op. */
  function UpdateSettings(s: Store, postsPerRun: Option<int>, intervalHours: Option<real>,
                          deleteAfterForward: Option<bool>, autoIndex: Option<bool>): (r: Store)
    ensures r == s.(settings := r.settings)
    ensures s.settings.None? ==> r == s
    ensures postsPerRun.None? && intervalHours.None? && deleteAfterForward.None? && autoIndex.None? ==> r == s
    ensures s.settings.Some? ==> r.settings.Some? && r.settings.value.lastRun == s.settings.value.lastRun
    ensures s.settings.Some? ==> r.settings.value.postsPerRun == (if postsPerRun.Some? then postsPerRun else s.settings.value.postsPerRun)
    ensures s.settings.Some? ==> r.settings.value.intervalHours == (if intervalHours.Some? then intervalHours else s.settings.value.intervalHours)
    ensures s.settings.Some? ==> r.settings.value.deleteAfterForward == (if deleteAfterForward.Some? then deleteAfterForward else s.settings.value.deleteAfterForward)
    ensures s.settings.Some? ==> r.settings.value.autoIndex == (if autoIndex.Some? then autoIndex else s.settings.value.autoIndex)
  {
    match s.settings
    case None => s
    case Some(st) =>
      var st1 := if postsPerRun.Some? then st.(postsPerRun := postsPerRun) else st;
      var st2 := if intervalHours.Some? then st1.(intervalHours := intervalHours) else st1;
      var st3 := if deleteAfterForward.Some? then st2.(deleteAfterForward := deleteAfterForward) else st2;
      var st4 := if autoIndex.Some? then st3.(autoIndex := autoIndex) else st3;
      s.(settings := Some(st4))
  }

  /** `update_last_run`: stamps the settings document with time `t`. */
  function UpdateLastRun(s: Store, t: Time): (r: Store)
    ensures r == s.(settings := r.settings)
    ensures s.settings.None? ==> r == s
    ensures s.settings.Some? ==> r.settings == Some(s.settings.value.(lastRun := Some(t)))
  {
    match s.settings
    case None => s
    case Some(st) => s.(settings := Some(st.(lastRun := Some(t))))
  }
}

=== FILE: indexing.dfy ===
/** plugins/indexing.py: a post in the source channel carrying a video or a
    document becomes an entry of the content pool, keyed by its `file_id`
    and ordered by the post's message id. */
module Indexing {
  import opened Options
  import opened Text
  import opened Database

  /** A video or document attached to a post. */
  datatype Media = Media(fileId: string, fileName: Option<string>, mimeType: Option<string>)

  /** A channel post: its message id and its attachments, if any. */
  datatype ChannelPost = ChannelPost(id: int, video: Option<Media>, document: Option<Media>)

  /** The media type every indexed entry gets (`add_video`'s default). */
  const VideoMediaType: string := "video"
  const DefaultNamePrefix: string := "Video "

  /** `message.video or message.document`: the video when there is one. */
  function ChosenMedia(p: ChannelPost): (r: Option<Media>)
    ensures p.video.Some? ==> r == p.video
    ensures p.video.None? ==> r == p.document
    ensures r.None? <==> p.video.None? && p.document.None?
  {
    if p.video.Some? then p.video else p.document
  }

  /** `file_name or f"Video {message.id}"`: a missing or empty name falls
      back to one built from the message id. */
  function StoredName(p: ChannelPost, m: Media): (r: string)
    ensures |r| > 0
    ensures m.fileName.Some? && m.fileName.value != "" ==> r == m.fileName.value
    ensures m.fileName.None? || m.fileName.value == "" ==> |r| > |DefaultNamePrefix| && r[..|DefaultNamePrefix|] == DefaultNamePrefix && r[|DefaultNamePrefix|..] == IntToString(p.id)
  {
    if m.fileName.Some? && m.fileName.value != "" then m.fileName.value
    else DefaultNamePrefix + IntToString(p.id)
  }

  /** `index_video`: inserts the chosen media unless its file is already in
      the pool; reports whether an entry was added. The MIME type of a
      document is looked at but never acted on. The handler's filter, which
      passes only posts whose chat is `Config.SourceChannelId`, is assumed:
      every post given here comes from that chat. */
  function IndexVideo(s: Store, p: ChannelPost): (r: (Store, bool))
    ensures ChosenMedia(p).None? ==> r == (s, false)
    ensures r.1 <==> ChosenMedia(p).Some? && !HasFile(s.videos, ChosenMedia(p).value.fileId)
    ensures !r.1 ==> r.0 == s
    ensures r.1 ==> (&& r.0.videos == s.videos + [Video(s.nextVideoId, ChosenMedia(p).value.fileId,
                                                          StoredName(p, ChosenMedia(p).value), p.id, VideoMediaType)]
                     && r.0 == s.(videos := r.0.videos, nextVideoId := s.nextVideoId + 1))
    ensures Valid(s) ==> Valid(r.0)
  {
    match ChosenMedia(p)
    case None => (s, false)
    case Some(m) => AddVideo(s, m.fileId, StoredName(p, m), p.id, VideoMediaType)
  }

  /** Indexing the same post again adds nothing. */
  lemma IndexTwice(s: Store, p: ChannelPost)
    ensures var once := IndexVideo(s, p).0;
            IndexVideo(once, p) == (once, false)
  {
  }

  /** A document's MIME type does not matter: the same document with any
      other MIME type is indexed identically. */
  lemma MimeTypeIgnored(s: Store, p: ChannelPost, mime: Option<string>)
    requires p.document.Some?
    ensures IndexVideo(s, p.(document := Some(p.document.value.(mimeType := mime)))) == IndexVideo(s, p)
  {
  }

  /** Once indexed, the post's media is the pool's entry for its file, with
      the post's message id as its ordering key. */
  lemma IndexedEntry(s: Store, p: ChannelPost)
    requires Valid(s) && ChosenMedia(p).Some?
    ensures var r := IndexVideo(s, p).0;
            exists i | 0 <= i < |r.videos| :: r.videos[i].fileId == ChosenMedia(p).value.fileId
    ensures var r := IndexVideo(s, p);
            r.1 ==> exists i | 0 <= i < |r.0.videos| :: r.0.videos[i].fileId == ChosenMedia(p).value.fileId && r.0.videos[i].messageId == p.id
  {
    var r := IndexVideo(s, p);
    if r.1 {
      assert r.0.videos[|s.videos|].fileId == ChosenMedia(p).value.fileId;
    }
  }
}

=== FILE: options.dfy ===
/** Optional values: the model's stand-in for Python's `None` and for
    dictionary keys that may be missing from a stored document. */
module Options {

  datatype Option<+T> = None | Some(value: T) {

    /** Reading a setting or a session field with a fallback, as the bot
        does with `d.get(key, fallback)`: the stored value if there is one. */
    function ValueOr(fallback: T): T {
      if Some? then value else fallback
    }
  }
}

=== FILE: payment.dfy ===
/** plugins/payment.py: the per-user onboarding conversation that collects a
    channel and a gift card and files a pending subscription, and the
    administrators' Verify and Reject buttons. Telegram calls are inputs:
    the bot's rights in a channel come from an oracle, and what the bot
    sends back is returned as a value. */
module Payment {
  import opened Options
  import opened Text
  import opened Database
  import Config

  datatype State = WaitingChannel | WaitingPaymentMethod | WaitingGcCode | WaitingGcPin

  /** The `data` dictionary of a session; a key never written is `None`. */
  datatype SessionData = SessionData(plan: string, channelId: Option<ChatId>, paymentMethod: Option<string>,
                                     gcCode: Option<string>, gcPin: Option<string>)

  datatype Session = Session(state: State, data: SessionData)

  /** `user_states`: at most one session per user. */
  type Sessions = map<UserId, Session>

  const MonthlyPlan: string := "monthly"
  const ChannelPrefix: string := "-100"
  const DefaultMethod: string := "Gift Card"

  /** The two payment buttons and the method name each one stores. */
  datatype PayButton = Flipkart | AmazonPay

  function MethodName(b: PayButton): string {
    match b
    case Flipkart => "Flipkart"
    case AmazonPay => "Amazon Pay"
  }

  /** What `get_chat_member(channel, "me")` finds: the bot may post, it may
      not post, or the call raises (no access, not an administrator). */
  datatype MemberCheck = CanPost | CannotPost | NoAccess

  /** A private text message: its text and the chat it was forwarded from. */
  datatype TextMessage = TextMessage(text: string, forwardFromChat: Option<ChatId>)

  /** The bot's answer to the user; `KeyErrorRaised` is the handler raising
      before it answers. */
  datatype Reply =
    | NoReply
    | InvalidChannelFormat
    | NoPostRight
    | NoChannelAccess
    | ChannelVerified(channelId: ChatId)
    | AskPin
    | Submitted(subId: SubId)
    | MethodSelected(name: string)
    | SessionExpired
    | KeyErrorRaised

  /** The request posted to the admin channel under Verify and Reject buttons. */
  datatype AdminNotice = AdminNotice(chat: ChatId, subId: SubId, userId: UserId, channelId: ChatId,
                                     plan: string, paymentMethod: string, code: string, pin: string)

  datatype TextResult = TextResult(sessions: Sessions, store: Store, reply: Reply, notice: Option<AdminNotice>)

  /** Every session other than `uid`'s is as it was. */
  ghost predicate OthersUnchanged(before: Sessions, after: Sessions, uid: UserId) {
    forall u | u != uid :: (u in after <==> u in before) && (u in before && u in after ==> after[u] == before[u])
  }

  // ---------------------------------------------------------------------
  // Channel ids typed by the user

  /** The accepted form: `-100` followed by one or more ASCII digits. */
  predicate IsChannelIdText(t: string) {
    |t| > |ChannelPrefix| && t[..|ChannelPrefix|] == ChannelPrefix && AllDigits(t[|ChannelPrefix|..])
  }

  /** `int(t)` on an accepted text; formatting the id gives the text back. */
  function ParseChannelId(t: string): (c: ChatId)
    requires IsChannelIdText(t)
    ensures c < 0
    ensures IntToString(c) == t
  {
    var digits := t[1..];
    assert digits[0] == '1';
    assert AllDigits(digits) by {
      forall i | 0 <= i < |digits| ensures IsDigit(digits[i]) {
        if i >= 3 {
          assert digits[i] == t[|ChannelPrefix|..][i - 3];
        }
      }
    }
    LeadingDigitPositive(digits);
    NatOfDigits(digits);
    assert t == "-" + digits;
    -(DigitsValue(digits) as int)
  }

  /** An id whose decimal form has the accepted shape is read back exactly. */
  lemma FormattedChannelId(c: ChatId)
    requires IsChannelIdText(IntToString(c))
    ensures ParseChannelId(IntToString(c)) == c
  {
    var t := IntToString(c);
    assert c < 0;
    assert t[1..] == NatToString(-c);
    DigitsOfNat(-c);
  }

  /** The channel a message names while a session waits for one: the typed
      id when it has the accepted form, otherwise the chat the message was
      forwarded from, otherwise none. */
  function ChannelOf(msg: TextMessage): (r: Option<ChatId>)
    ensures IsChannelIdText(Strip(msg.text)) ==> r.Some? && IntToString(r.value) == Strip(msg.text)
    ensures !IsChannelIdText(Strip(msg.text)) ==> r == msg.forwardFromChat
    ensures r.Some? <==> IsChannelIdText(Strip(msg.text)) || msg.forwardFromChat.Some?
  {
    var t := Strip(msg.text);
    if IsChannelIdText(t) then Some(ParseChannelId(t)) else msg.forwardFromChat
  }

  // ---------------------------------------------------------------------
  // The conversation

  /** `ask_channel`: choosing the monthly plan starts the user's session
      afresh, discarding any earlier one. */
  function AskChannel(ss: Sessions, uid: UserId): (r: Sessions)
    ensures uid in r && r[uid].state == WaitingChannel
    ensures r[uid].data.plan == MonthlyPlan
    ensures r[uid].data.channelId.None? && r[uid].data.paymentMethod.None? && r[uid].data.gcCode.None? && r[uid].data.gcPin.None?
    ensures OthersUnchanged(ss, r, uid)
  {
    ss[uid := Session(WaitingChannel, SessionData(MonthlyPlan, None, None, None, None))]
  }

  /** A message while the session waits for a channel: a named channel
      where the bot may post is stored and the session moves on to the
      payment buttons; otherwise the user is told why and nothing changes. */
  function ChannelText(ss: Sessions, s: Store, uid: UserId, msg: TextMessage, member: ChatId -> MemberCheck): (r: TextResult)
    requires uid in ss
    ensures r.store == s && r.notice.None?
    ensures r.reply.ChannelVerified? <==> ChannelOf(msg).Some? && member(ChannelOf(msg).value) == CanPost
    ensures r.reply.ChannelVerified? ==> (&& ChannelOf(msg) == Some(r.reply.channelId)
                                          && r.sessions == ss[uid := Session(WaitingPaymentMethod, ss[uid].data.(channelId := Some(r.reply.channelId)))])
    ensures !r.reply.ChannelVerified? ==> r.sessions == ss
    ensures OthersUnchanged(ss, r.sessions, uid)
  {
    match ChannelOf(msg)
    case None => TextResult(ss, s, InvalidChannelFormat, None)
    case Some(c) =>
      match member(c)
      case CannotPost => TextResult(ss, s, NoPostRight, None)
      case NoAccess => TextResult(ss, s, NoChannelAccess, None)
      case CanPost =>
        TextResult(ss[uid := Session(WaitingPaymentMethod, ss[uid].data.(channelId := Some(c)))], s, ChannelVerified(c), None)
  }

  /** A message while the session waits for the gift-card code: the stripped
      text is stored as the code and the PIN is asked for. */
  function CodeText(ss: Sessions, s: Store, uid: UserId, msg: TextMessage): (r: TextResult)
    requires uid in ss
    ensures r.store == s && r.notice.None? && r.reply == AskPin
    ensures uid in r.sessions && r.sessions[uid].state == WaitingGcPin
    ensures r.sessions[uid].data == ss[uid].data.(gcCode := Some(Strip(msg.text)))
    ensures OthersUnchanged(ss, r.sessions, uid)
  {
    TextResult(ss[uid := Session(WaitingGcPin, ss[uid].data.(gcCode := Some(Strip(msg.text))))], s, AskPin, None)
  }

  /** A message while the session waits for the PIN: the pending
      subscription is filed, the admin channel is sent the request and the
      session ends; when the session lacks a channel or a code, reading it
      raises after the PIN has been stored, and nothing is filed. */
  function PinText(ss: Sessions, s: Store, uid: UserId, msg: TextMessage, now: Time): (r: TextResult)
    requires uid in ss
    ensures var data := ss[uid].data;
            data.channelId.None? || data.gcCode.None? ==>
              && r.reply == KeyErrorRaised && r.store == s && r.notice.None?
              && r.sessions == ss[uid := Session(WaitingGcPin, data.(gcPin := Some(Strip(msg.text))))]
    ensures var data := ss[uid].data;
            data.channelId.Some? && data.gcCode.Some? ==>
              && r.reply.Submitted?
              && r.sessions == ss - {uid}
              && r.reply.subId in r.store.subscriptions
              && r.store.subscriptions[r.reply.subId].status == Pending
              && r.store.subscriptions[r.reply.subId].userId == uid
              && r.store.subscriptions[r.reply.subId].channelId == data.channelId.value
              && r.store.subscriptions[r.reply.subId].planType == data.plan
              && r.store.subscriptions[r.reply.subId].paymentMethod == data.paymentMethod.ValueOr(DefaultMethod)
              && r.store.subscriptions[r.reply.subId].paymentDetails == GiftCard(data.gcCode.value, Strip(msg.text))
              && r.notice == Some(AdminNotice(Config.AdminChannelId, r.reply.subId, uid, data.channelId.value, data.plan,
                                              data.paymentMethod.ValueOr(DefaultMethod), data.gcCode.value, Strip(msg.text)))
    ensures var data := ss[uid].data;
            data.channelId.Some? && data.gcCode.Some? ==>
              r.store == AddPendingSubscription(s, uid, data.channelId.value, data.plan, data.paymentMethod.ValueOr(DefaultMethod),
                                                GiftCard(data.gcCode.value, Strip(msg.text)), now).0
    ensures Valid(s) ==> Valid(r.store)
    ensures OthersUnchanged(ss, r.sessions, uid)
  {
    var data := ss[uid].data;
    var pin := Strip(msg.text);
    if data.channelId.None? || data.gcCode.None? then
      TextResult(ss[uid := Session(WaitingGcPin, data.(gcPin := Some(pin)))], s, KeyErrorRaised, None)
    else
      var payMethod := data.paymentMethod.ValueOr(DefaultMethod);
      var added := AddPendingSubscription(s, uid, data.channelId.value, data.plan, payMethod,
                                          GiftCard(data.gcCode.value, pin), now);
      TextResult(ss - {uid}, added.0, Submitted(added.1),
                 Some(AdminNotice(Config.AdminChannelId, added.1, uid, data.channelId.value, data.plan,
                                  payMethod, data.gcCode.value, pin)))
  }

  /** `handle_text_input`, with `add_pending_subscription` called as its
      authors intended (method and gift card as the payment fields). Text
      from a user without a session, or while the session waits for a
      button press, is ignored. */
  function HandleTextInput(ss: Sessions, s: Store, uid: UserId, msg: TextMessage,
                           member: ChatId -> MemberCheck, now: Time): (r: TextResult)
    ensures uid !in ss ==> r == TextResult(ss, s, NoReply, None)
    ensures uid in ss && ss[uid].state == WaitingPaymentMethod ==> r == TextResult(ss, s, NoReply, None)
    ensures uid in ss && ss[uid].state == WaitingChannel ==> r == ChannelText(ss, s, uid, msg, member)
    ensures uid in ss && ss[uid].state == WaitingGcCode ==> r == CodeText(ss, s, uid, msg)
    ensures uid in ss && ss[uid].state == WaitingGcPin ==> r == PinText(ss, s, uid, msg, now)
    ensures OthersUnchanged(ss, r.sessions, uid)
    ensures !r.reply.Submitted? ==> r.store == s && r.notice.None?
  {
    if uid !in ss then TextResult(ss, s, NoReply, None)
    else
      match ss[uid].state
      case WaitingChannel => ChannelText(ss, s, uid, msg, member)
      case WaitingPaymentMethod => TextResult(ss, s, NoReply, None)
      case WaitingGcCode => CodeText(ss, s, uid, msg)
      case WaitingGcPin => PinText(ss, s, uid, msg, now)
  }

  /** `pay_flipkart` / `pay_amazon` as written: any existing session, in
      whatever state, moves to waiting for the gift-card code. */
  function PayMethod(ss: Sessions, uid: UserId, button: PayButton): (r: (Sessions, Reply))
    ensures uid !in ss ==> r == (ss, SessionExpired)
    ensures uid in ss ==> (&& uid in r.0
                           && r.0[uid].state == WaitingGcCode
                           && r.0[uid].data == ss[uid].data.(paymentMethod := Some(MethodName(button)))
                           && r.1 == MethodSelected(MethodName(button)))
    ensures OthersUnchanged(ss, r.0, uid)
  {
    if uid !in ss then (ss, SessionExpired)
    else
      (ss[uid := Session(WaitingGcCode, ss[uid].data.(paymentMethod := Some(MethodName(button))))],
       MethodSelected(MethodName(button)))
  }

  /** The payment buttons as intended: they act only on a session whose
      channel has been verified; any other press is treated like a press
      without a session. */
  function PayMethodGuarded(ss: Sessions, uid: UserId, button: PayButton): (r: (Sessions, Reply))
    ensures !(uid in ss && ss[uid].data.channelId.Some?) ==> r == (ss, SessionExpired)
    ensures uid in ss && ss[uid].data.channelId.Some? ==> r == PayMethod(ss, uid, button)
    ensures OthersUnchanged(ss, r.0, uid)
  {
    if uid in ss && ss[uid].data.channelId.Some? then PayMethod(ss, uid, button) else (ss, SessionExpired)
  }

  // ---------------------------------------------------------------------
  // Administrators' buttons

  datatype AdminOutcome = NotFound | AlreadyVerified | Verified | Rejected

  /** `admin_verify`: a missing subscription and an active one are left
      alone; any other (pending or expired) is activated for the default
      number of days from `now`. */
  function AdminVerify(s: Store, sid: SubId, now: Time): (r: (Store, AdminOutcome))
    ensures sid !in s.subscriptions ==> r == (s, NotFound)
    ensures sid in s.subscriptions && s.subscriptions[sid].status == Active ==> r == (s, AlreadyVerified)
    ensures r.1 == Verified <==> sid in s.subscriptions && s.subscriptions[sid].status != Active
    ensures r.1 == Verified ==> (&& sid in r.0.subscriptions
                                 && r.0.subscriptions[sid].status == Active
                                 && r.0.subscriptions[sid].expiryDate == Some(now + DefaultDurationDays * SecondsPerDay))
    ensures forall k | k != sid :: (k in r.0.subscriptions <==> k in s.subscriptions)
    ensures r.1 == Verified ==>
      r.0.subscriptions[sid] == s.subscriptions[sid].(status := Active, startDate := now,
                                                      expiryDate := Some(now + DefaultDurationDays * SecondsPerDay))
    ensures forall k | k != sid && k in s.subscriptions :: r.0.subscriptions[k] == s.subscriptions[k]
    ensures r.0 == s.(subscriptions := r.0.subscriptions)
  {
    match FindSubscription(s, sid)
    case None => (s, NotFound)
    case Some(sub) =>
      if sub.status == Active then (s, AlreadyVerified)
      else (ActivateSubscription(s, sid, DefaultDurationDays, now).0, Verified)
  }

  /** `admin_reject`: a missing subscription is reported; an existing one
      is deleted, whatever its status. */
  function AdminReject(s: Store, sid: SubId): (r: (Store, AdminOutcome))
    ensures sid !in s.subscriptions ==> r == (s, NotFound)
    ensures sid in s.subscriptions ==> r.1 == Rejected
    ensures sid !in r.0.subscriptions
    ensures forall k | k != sid :: (k in r.0.subscriptions <==> k in s.subscriptions)
    ensures forall k | k in r.0.subscriptions :: r.0.subscriptions[k] == s.subscriptions[k]
    ensures r.0 == s.(subscriptions := r.0.subscriptions)
  {
    match FindSubscription(s, sid)
    case None => (s, NotFound)
    case Some(_) => (RejectSubscription(s, sid).0, Rejected)
  }

  /** Pressing Verify again changes nothing and answers "already verified". */
  lemma VerifyTwice(s: Store, sid: SubId, now: Time, later: Time)
    requires sid in s.subscriptions
    ensures var first := AdminVerify(s, sid, now).0;
            AdminVerify(first, sid, later) == (first, AlreadyVerified)
  {
  }

  /** After Reject, Verify finds nothing to verify. */
  lemma RejectThenVerify(s: Store, sid: SubId, now: Time)
    ensures var after := AdminReject(s, sid).0;
            AdminVerify(after, sid, now) == (after, NotFound)
  {
  }

  // ---------------------------------------------------------------------
  // The whole conversation, with the intended payment buttons

  datatype Event =
    | ChoosePlan(userId: UserId)
    | Text(userId: UserId, msg: TextMessage)
    | ChooseMethod(userId: UserId, button: PayButton)
    | Verify(subId: SubId)
    | Reject(subId: SubId)

  datatype World = World(sessions: Sessions, store: Store)

  /** One handler run. */
  function Step(w: World, ev: Event, member: ChatId -> MemberCheck, now: Time): (r: World)
    ensures ev.Verify? || ev.Reject? ==> r.sessions == w.sessions
    ensures ev.ChoosePlan? || ev.ChooseMethod? ==> r.store == w.store
    ensures !ev.Verify? && !ev.Reject? ==> OthersUnchanged(w.sessions, r.sessions, ev.userId)
  {
    match ev
    case ChoosePlan(uid) => w.(sessions := AskChannel(w.sessions, uid))
    case Text(uid, msg) =>
      var t := HandleTextInput(w.sessions, w.store, uid, msg, member, now);
      World(t.sessions, t.store)
    case ChooseMethod(uid, b) => w.(sessions := PayMethodGuarded(w.sessions, uid, b).0)
    case Verify(sid) => w.(store := AdminVerify(w.store, sid, now).0)
    case Reject(sid) => w.(store := AdminReject(w.store, sid).0)
  }

  /** What every session satisfies when it is reached through the handlers:
      the plan is monthly, a channel is known once the channel step is
      passed, and a code is known once the PIN is asked for. */
  predicate SessionWellFormed(x: Session) {
    && x.data.plan == MonthlyPlan
    && (x.state != WaitingChannel ==> x.data.channelId.Some?)
    && (x.state == WaitingGcPin ==> x.data.gcCode.Some?)
  }

  predicate SessionsWellFormed(ss: Sessions) {
    forall u | u in ss :: SessionWellFormed(ss[u])
  }

  /** With well-formed sessions, a PIN always files the pending subscription
      and ends the session. */
  lemma PinSubmits(ss: Sessions, s: Store, uid: UserId, msg: TextMessage, member: ChatId -> MemberCheck, now: Time)
    requires SessionsWellFormed(ss)
    requires uid in ss && ss[uid].state == WaitingGcPin
    ensures var r := HandleTextInput(ss, s, uid, msg, member, now);
            && r.reply.Submitted?
            && uid !in r.sessions
            && r.reply.subId in r.store.subscriptions
            && r.store.subscriptions[r.reply.subId].status == Pending
            && r.store.subscriptions[r.reply.subId].userId == uid
            && r.store.subscriptions[r.reply.subId].channelId == ss[uid].data.channelId.value
            && r.store.subscriptions[r.reply.subId].paymentDetails == GiftCard(ss[uid].data.gcCode.value, Strip(msg.text))
  {
    assert SessionWellFormed(ss[uid]);
  }

  /** A handler that replaces at most `uid`'s session by a well-formed one
      keeps all sessions well formed. */
  lemma OneSessionWellFormed(before: Sessions, after: Sessions, uid: UserId)
    requires SessionsWellFormed(before) && OthersUnchanged(before, after, uid)
    requires uid in after ==> SessionWellFormed(after[uid])
    ensures SessionsWellFormed(after)
  {
    forall u | u in after ensures SessionWellFormed(after[u]) {
      if u != uid {
        assert u in before;
      }
    }
  }

  lemma TextSessionWellFormed(ss: Sessions, s: Store, uid: UserId, msg: TextMessage, member: ChatId -> MemberCheck, now: Time)
    requires uid in ss && SessionWellFormed(ss[uid])
    ensures var r := HandleTextInput(ss, s, uid, msg, member, now).sessions;
            uid in r ==> SessionWellFormed(r[uid])
  {
    match ss[uid].state
    case WaitingChannel =>
      var r := ChannelText(ss, s, uid, msg, member);
      if r.reply.ChannelVerified? {
        assert r.sessions[uid].data.channelId.Some?;
      }
    case WaitingPaymentMethod =>
    case WaitingGcCode =>
      var r := CodeText(ss, s, uid, msg);
      assert r.sessions[uid].data.gcCode.Some?;
    case WaitingGcPin =>
  }

  lemma TextKeepsWellFormed(ss: Sessions, s: Store, uid: UserId, msg: TextMessage, member: ChatId -> MemberCheck, now: Time)
    requires SessionsWellFormed(ss) && Valid(s)
    ensures SessionsWellFormed(HandleTextInput(ss, s, uid, msg, member, now).sessions)
    ensures Valid(HandleTextInput(ss, s, uid, msg, member, now).store)
  {
    if uid in ss {
      TextSessionWellFormed(ss, s, uid, msg, member, now);
    }
    OneSessionWellFormed(ss, HandleTextInput(ss, s, uid, msg, member, now).sessions, uid);
  }

  lemma GuardedKeepsWellFormed(ss: Sessions, uid: UserId, b: PayButton)
    requires SessionsWellFormed(ss)
    ensures SessionsWellFormed(PayMethodGuarded(ss, uid, b).0)
  {
    if uid in ss {
      assert SessionWellFormed(ss[uid]);
    }
    OneSessionWellFormed(ss, PayMethodGuarded(ss, uid, b).0, uid);
  }

  /** Every handler keeps the sessions well formed and the store valid. */
  lemma StepPreservesWellFormed(w: World, ev: Event, member: ChatId -> MemberCheck, now: Time)
    requires SessionsWellFormed(w.sessions) && Valid(w.store)
    ensures SessionsWellFormed(Step(w, ev, member, now).sessions)
    ensures Valid(Step(w, ev, member, now).store)
  {
    match ev
    case ChoosePlan(uid) => OneSessionWellFormed(w.sessions, AskChannel(w.sessions, uid), uid);
    case Text(uid, msg) => TextKeepsWellFormed(w.sessions, w.store, uid, msg, member, now);
    case ChooseMethod(uid, b) => GuardedKeepsWellFormed(w.sessions, uid, b);
    case Verify(sid) =>
    case Reject(sid) =>
  }

  // ---------------------------------------------------------------------
  // The payment buttons as written

  /** The channel step can be skipped: a payment button pressed while the
      session still waits for a channel leads, after a code and a PIN, to a
      handler that raises on the missing channel id, files nothing, and
      leaves the session stuck waiting for the PIN, so every later PIN
      raises too. */
  lemma PayMethodSkipsChannel(s: Store, uid: UserId, member: ChatId -> MemberCheck, now: Time, pin2: string)
    ensures var ss0 := AskChannel(map[], uid);
            var ss1 := PayMethod(ss0, uid, Flipkart).0;
            var r2 := HandleTextInput(ss1, s, uid, TextMessage("CODE", None), member, now);
            var r3 := HandleTextInput(r2.sessions, s, uid, TextMessage("1234", None), member, now);
            var r4 := HandleTextInput(r3.sessions, s, uid, TextMessage(pin2, None), member, now);
            && r2.reply == AskPin
            && r3.reply == KeyErrorRaised && r3.store == s && r3.sessions[uid].state == WaitingGcPin
            && r4.reply == KeyErrorRaised && r4.store == s && r4.sessions[uid].state == WaitingGcPin
  {
    var ss0 := AskChannel(map[], uid);
    var ss1 := PayMethod(ss0, uid, Flipkart).0;
    assert ss1[uid].data.channelId.None?;
    var r2 := HandleTextInput(ss1, s, uid, TextMessage("CODE", None), member, now);
    assert r2.sessions[uid].data.channelId.None?;
    var r3 := HandleTextInput(r2.sessions, s, uid, TextMessage("1234", None), member, now);
    assert r3.sessions[uid].data.channelId.None?;
  }

  /** The same press breaks the session invariant that the intended buttons keep. */
  lemma PayMethodBreaksWellFormed(uid: UserId)
    ensures SessionsWellFormed(AskChannel(map[], uid))
    ensures !SessionsWellFormed(PayMethod(AskChannel(map[], uid), uid, AmazonPay).0)
  {
    var ss := PayMethod(AskChannel(map[], uid), uid, AmazonPay).0;
    assert !SessionWellFormed(ss[uid]);
  }
}

=== FILE: permissions.dfy ===
/** Administrator accounts and their capabilities (database.py, "Admin
    Management"). Capabilities are string-keyed flags as in the stored
    documents; the owner is never looked up and holds every capability. */
module Permissions {
  import opened Options
  import opened Database
  import Config

  const ChangeInterval: string := "change_interval"
  const ChangePosts: string := "change_posts"
  const AddAdminCap: string := "add_admin"
  const ManagePayments: string := "manage_payments"

  /** The flags a newly added administrator starts with. */
  const DefaultPermissions: map<string, bool> :=
    map[ChangeInterval := false, ChangePosts := false, AddAdminCap := false, ManagePayments := true]

  /** `add_admin`: stores a new account with the default flags; an existing
      account is left untouched. Always reports success. */
  function AddAdmin(s: Store, userId: UserId, addedBy: Option<UserId>, now: Time): (r: (Store, bool))
    ensures r.1
    ensures userId in r.0.admins
    ensures userId in s.admins ==> r.0 == s
    ensures userId !in s.admins ==> (&& r.0.admins[userId].permissions == DefaultPermissions
                                     && r.0.admins[userId].addedBy == addedBy
                                     && r.0.admins[userId].addedAt == now)
    ensures forall u | u != userId :: (u in r.0.admins <==> u in s.admins)
    ensures forall u | u != userId && u in s.admins :: r.0.admins[u] == s.admins[u]
    ensures r.0 == s.(admins := r.0.admins)
  {
    if userId in s.admins then (s, true)
    else (s.(admins := s.admins[userId := Admin(now, addedBy, DefaultPermissions)]), true)
  }

  /** `remove_admin`: deletes the account; reports whether one existed. */
  function RemoveAdmin(s: Store, userId: UserId): (r: (Store, bool))
    ensures r.1 <==> userId in s.admins
    ensures userId !in r.0.admins
    ensures forall u | u != userId :: (u in r.0.admins <==> u in s.admins)
    ensures forall u | u in r.0.admins :: r.0.admins[u] == s.admins[u]
    ensures r.0 == s.(admins := r.0.admins)
  {
    (s.(admins := s.admins - {userId}), userId in s.admins)
  }

  /** `update_admin_permission`: sets one flag of an existing account; an
      unknown user is not created. */
  function UpdateAdminPermission(s: Store, userId: UserId, permission: string, value: bool): (r: Store)
    ensures userId !in s.admins ==> r == s
    ensures r.admins.Keys == s.admins.Keys
    ensures userId in s.admins ==> permission in r.admins[userId].permissions && r.admins[userId].permissions[permission] == value
    ensures userId in s.admins ==> forall p | p != permission ::
      (p in r.admins[userId].permissions <==> p in s.admins[userId].permissions)
      && (p in s.admins[userId].permissions ==> r.admins[userId].permissions[p] == s.admins[userId].permissions[p])
    ensures forall u | u != userId && u in s.admins :: r.admins[u] == s.admins[u]
    ensures r == s.(admins := r.admins)
  {
    if userId in s.admins then
      var a := s.admins[userId];
      s.(admins := s.admins[userId := a.(permissions := a.permissions[permission := value])])
    else s
  }

  /** The stored flag of an account, a missing key reading as false. */
  predicate HasFlag(a: Admin, permission: string) {
    permission in a.permissions && a.permissions[permission]
  }

  /** `check_admin_permission`: the owner always; otherwise only a stored
      account whose flag is set. */
  function CheckAdminPermission(s: Store, userId: UserId, permission: string): (r: bool)
    ensures userId == Config.OwnerId ==> r
    ensures userId != Config.OwnerId && userId !in s.admins ==> !r
    ensures userId != Config.OwnerId && userId in s.admins && permission !in s.admins[userId].permissions ==> !r
    ensures userId != Config.OwnerId && userId in s.admins ==> (r <==> HasFlag(s.admins[userId], permission))
  {
    userId == Config.OwnerId || (userId in s.admins && HasFlag(s.admins[userId], permission))
  }

  /** `get_admins_with_permission`: the owner plus every account with the
      flag set, as a set (so no id appears twice). */
  function GetAdminsWithPermission(s: Store, permission: string): (r: set<UserId>)
    ensures Config.OwnerId in r
    ensures forall u | u in r :: u == Config.OwnerId || u in s.admins
  {
    {Config.OwnerId} + set u | u in s.admins && HasFlag(s.admins[u], permission)
  }

  /** `is_user_admin`: the owner, or anyone with a stored account. Whoever
      is not an administrator is refused every capability. */
  predicate IsUserAdmin(s: Store, userId: UserId)
    ensures userId == Config.OwnerId ==> IsUserAdmin(s, userId)
    ensures !IsUserAdmin(s, userId) ==> forall p :: !CheckAdminPermission(s, userId, p)
  {
    userId == Config.OwnerId || userId in s.admins
  }

  /** The listing and the check agree: a user is listed for a capability
      exactly when the check grants it. */
  lemma ListedIffPermitted(s: Store, permission: string, userId: UserId)
    ensures userId in GetAdminsWithPermission(s, permission) <==> CheckAdminPermission(s, userId, permission)
  {
  }

  /** A freshly added administrator may manage payments and nothing else,
      and any capability name outside the defaults reads as false. */
  lemma NewAdminDefaults(s: Store, userId: UserId, addedBy: Option<UserId>, now: Time, permission: string)
    requires userId !in s.admins && userId != Config.OwnerId
    ensures var s' := AddAdmin(s, userId, addedBy, now).0;
            && CheckAdminPermission(s', userId, ManagePayments)
            && !CheckAdminPermission(s', userId, ChangeInterval)
            && !CheckAdminPermission(s', userId, ChangePosts)
            && !CheckAdminPermission(s', userId, AddAdminCap)
            && (CheckAdminPermission(s', userId, permission) <==> permission == ManagePayments)
  {
  }

  /** After `update_admin_permission` the check reports the new flag for
      that account and capability, and no other answer changes. */
  lemma UpdateThenCheck(s: Store, userId: UserId, permission: string, value: bool, u: UserId, p: string)
    requires userId in s.admins && userId != Config.OwnerId
    ensures CheckAdminPermission(UpdateAdminPermission(s, userId, permission, value), userId, permission) == value
    ensures (u != userId || p != permission) ==>
      CheckAdminPermission(UpdateAdminPermission(s, userId, permission, value), u, p) == CheckAdminPermission(s, u, p)
  {
  }

  /** Holding any capability makes a user an administrator. */
  lemma PermittedIsAdmin(s: Store, userId: UserId, permission: string)
    ensures CheckAdminPermission(s, userId, permission) ==> IsUserAdmin(s, userId)
  {
  }

  /** Removing an account withdraws every capability of a non-owner. */
  lemma RemovedHasNothing(s: Store, userId: UserId, permission: string)
    requires userId != Config.OwnerId
    ensures !CheckAdminPermission(RemoveAdmin(s, userId).0, userId, permission)
    ensures !IsUserAdmin(RemoveAdmin(s, userId).0, userId)
  {
  }
}

=== FILE: scheduler.dfy ===
/** scheduler_tasks.py: the interval-gated batch job that sends every
    active subscription up to `posts_per_run` videos it has not received,
    and the expiry job. Sending is the transport's business: the outcome of
    each send attempt is an input to the model. */
module SchedulerTasks {
  import opened Options
  import opened Database

  /** What `client.send_video` does: succeed, raise Forbidden or
      ChatWriteForbidden, or raise anything else. */
  datatype SendOutcome = Sent | Forbidden | OtherError

  /** The outcome of the `i`-th send attempt made for a subscription in this run. */
  type Transport = (SubId, nat) -> SendOutcome

  /** Why a subscription's inner loop ended: the batch was full, no unposted
      video was left, the bot may not post there, or another send error. */
  datatype StopReason = Completed | Exhausted | Denied | Failed

  /** The message sent to a subscriber whose channel refused the bot. */
  datatype Alert = Alert(userId: UserId, channelId: ChatId)

  datatype JobResult = JobResult(store: Store, alerts: seq<Alert>)

  const DefaultLastRun: Time := 0
  const DefaultIntervalHours: real := 24.0
  const DefaultPostsPerRun: int := 1
  const SecondsPerHour: int := 3600

  function LastRun(st: Settings): Time { st.lastRun.ValueOr(DefaultLastRun) }
  function IntervalHours(st: Settings): real { st.intervalHours.ValueOr(DefaultIntervalHours) }
  function PostsPerRun(st: Settings): int { st.postsPerRun.ValueOr(DefaultPostsPerRun) }

  /** How many times `for i in range(posts_per_run)` iterates. */
  function BatchSize(st: Settings): nat { if PostsPerRun(st) > 0 then PostsPerRun(st) else 0 }

  /** The gate: at least `interval_hours` hours have passed since `last_run`
      (the job returns early when strictly fewer have). A document with
      neither field set opens the gate 24 hours after the epoch; a
      non-positive interval keeps it open from `last_run` on. */
  predicate IntervalElapsed(st: Settings, now: Time)
    ensures st.lastRun.None? && st.intervalHours.None? ==> (IntervalElapsed(st, now) <==> now >= 24 * SecondsPerHour)
    ensures IntervalHours(st) <= 0.0 && now >= LastRun(st) ==> IntervalElapsed(st, now)
  {
    (now - LastRun(st)) as real >= IntervalHours(st) * SecondsPerHour as real
  }

  function AlertFor(sub: Subscription, stop: StopReason): seq<Alert> {
    if stop == Denied then [Alert(sub.userId, sub.channelId)] else []
  }

  predicate DistinctIds(subs: seq<Subscription>) {
    forall i, j | 0 <= i < j < |subs| :: subs[i].id != subs[j].id
  }

  // ---------------------------------------------------------------------
  // The job as written: loops over the store

  /** The inner loop for one subscription from attempt `i` on: fetch the next
      unposted video, send it, record it on success; stop on the first
      missing video or send failure. Only the post history changes. */
  function PostVideos(s: Store, sub: Subscription, i: nat, n: nat, transport: Transport, now: Time): (r: (Store, StopReason))
    requires i <= n
    decreases n - i
    ensures r.0 == s.(history := r.0.history)
  {
    if i == n then (s, Completed)
    else
      match GetNextVideoForSub(s, sub.id)
      case None => (s, Exhausted)
      case Some(v) =>
        match transport(sub.id, i)
        case Sent => PostVideos(RecordPost(s, sub.id, v.id, now), sub, i + 1, n, transport, now)
        case Forbidden => (s, Denied)
        case OtherError => (s, Failed)
  }

  /** The outer loop over the subscriptions listed at the start of the run;
      a failure of one subscription ends only that subscription's loop. */
  function PostToSubscriptions(s: Store, subs: seq<Subscription>, n: nat, transport: Transport, now: Time): (r: (Store, seq<Alert>))
    decreases |subs|
    ensures r.0 == s.(history := r.0.history)
    ensures |r.1| <= |subs|
  {
    if |subs| == 0 then (s, [])
    else
      var first := PostVideos(s, subs[0], 0, n, transport, now);
      var rest := PostToSubscriptions(first.0, subs[1..], n, transport, now);
      (rest.0, AlertFor(subs[0], first.1) + rest.1)
  }

  /** `daily_post_job`. Without a settings document, or before the interval
      has elapsed, nothing changes. Otherwise every active subscription gets
      its batch and `last_run` is then written once, to the clock reading
      `finish` taken when the loop is over, whatever failed. */
  function DailyPostJob(s: Store, now: Time, finish: Time, transport: Transport): (r: JobResult)
    ensures s.settings.None? ==> r == JobResult(s, [])
    ensures s.settings.Some? && !IntervalElapsed(s.settings.value, now) ==> r == JobResult(s, [])
    ensures s.settings.Some? && IntervalElapsed(s.settings.value, now) ==>
      && r.store.settings == Some(s.settings.value.(lastRun := Some(finish)))
      && r.store == s.(history := r.store.history, settings := r.store.settings)
  {
    match s.settings
    case None => JobResult(s, [])
    case Some(st) =>
      if !IntervalElapsed(st, now) then JobResult(s, [])
      else
        var run := PostToSubscriptions(s, ActiveSubscriptions(s), BatchSize(st), transport, now);
        JobResult(UpdateLastRun(run.0, finish), run.1)
  }

  /** `expiry_check_job`: one expiry sweep. Exactly the active
      subscriptions past their expiry date become expired, and afterwards no
      listed active subscription is past its expiry date. */
  function ExpiryCheckJob(s: Store, now: Time): (r: Store)
    ensures r.subscriptions.Keys == s.subscriptions.Keys
    ensures r == s.(subscriptions := r.subscriptions)
    ensures forall k | k in s.subscriptions && DueForExpiry(s.subscriptions[k], now) ::
      r.subscriptions[k] == s.subscriptions[k].(status := Expired)
    ensures forall k | k in s.subscriptions && !DueForExpiry(s.subscriptions[k], now) ::
      r.subscriptions[k] == s.subscriptions[k]
    ensures Valid(s) ==> Valid(r)
    ensures forall i | 0 <= i < |ActiveSubscriptions(r)| ::
      ActiveSubscriptions(r)[i].expiryDate.None? || ActiveSubscriptions(r)[i].expiryDate.value >= now
  {
    ExpireSubscriptions(s, now)
  }

  /** Running the expiry job twice at the same time does no more than
      running it once. */
  lemma ExpiryJobIdempotent(s: Store, now: Time)
    ensures ExpiryCheckJob(ExpiryCheckJob(s, now), now) == ExpiryCheckJob(s, now)
  {
    ExpireLaterAbsorbs(s, now, now);
  }

  /** In a valid store, the job's listing of active subscriptions afterwards
      is the listing before it without the records past their expiry. */
  lemma ExpiryJobListing(s: Store, now: Time, sub: Subscription)
    requires Valid(s)
    ensures sub in ActiveSubscriptions(ExpiryCheckJob(s, now)) <==>
            sub in ActiveSubscriptions(s) && !DueForExpiry(sub, now)
  {
  }

  // ---------------------------------------------------------------------
  // Reference: each subscription on its own, against the pre-run history

  datatype BatchResult = BatchResult(sent: seq<Video>, stop: StopReason)
  datatype RunOutcome = RunOutcome(records: seq<PostRecord>, alerts: seq<Alert>)

  /** The videos one subscription is sent from attempt `i` on, given the ids
      already posted to it: unposted videos in ascending `messageId`, each at
      most once, as long as the sends succeed and the batch is not full. */
  function Batch(sid: SubId, videos: seq<Video>, posted: set<VideoId>, i: nat, n: nat, transport: Transport): (b: BatchResult)
    requires i <= n
    decreases n - i
    ensures |b.sent| <= n - i
    ensures b.stop == Completed <==> |b.sent| == n - i
  {
    if i == n then BatchResult([], Completed)
    else
      match NextVideo(videos, posted)
      case None => BatchResult([], Exhausted)
      case Some(v) =>
        match transport(sid, i)
        case Sent =>
          var rest := Batch(sid, videos, posted + {v.id}, i + 1, n, transport);
          BatchResult([v] + rest.sent, rest.stop)
        case Forbidden => BatchResult([], Denied)
        case OtherError => BatchResult([], Failed)
  }

  /** The videos sent from attempt `i` on come from the pool, were not in
      `posted`, are sent once each, and went out on successful attempts. */
  predicate SentSound(sid: SubId, videos: seq<Video>, posted: set<VideoId>, i: nat, sent: seq<Video>, transport: Transport) {
    && (forall k | 0 <= k < |sent| :: sent[k] in videos && sent[k].id !in posted)
    && (forall k, l | 0 <= k < l < |sent| :: sent[k].id != sent[l].id)
    && (forall j | i <= j < i + |sent| :: transport(sid, j) == Sent)
  }

  lemma SentSoundCons(sid: SubId, videos: seq<Video>, posted: set<VideoId>, i: nat, v: Video, rest: seq<Video>, transport: Transport)
    requires v in videos && v.id !in posted && transport(sid, i) == Sent
    requires SentSound(sid, videos, posted + {v.id}, i + 1, rest, transport)
    ensures SentSound(sid, videos, posted, i, [v] + rest, transport)
  {
    var sent := [v] + rest;
    forall k | 1 <= k < |sent| ensures sent[k] == rest[k - 1] {}
  }

  /** Every video of a batch comes from the pool, was not posted before,
      is sent once, and went out on a successful attempt. */
  lemma {:induction false} BatchSound(sid: SubId, videos: seq<Video>, posted: set<VideoId>, i: nat, n: nat, transport: Transport)
    requires i <= n
    decreases n - i
    ensures SentSound(sid, videos, posted, i, Batch(sid, videos, posted, i, n, transport).sent, transport)
  {
    if i < n && NextVideo(videos, posted).Some? && transport(sid, i) == Sent {
      var v := NextVideo(videos, posted).value;
      BatchSound(sid, videos, posted + {v.id}, i + 1, n, transport);
      BatchUnfold(sid, videos, posted, i, n, transport, v);
      SentSoundCons(sid, videos, posted, i, v, Batch(sid, videos, posted + {v.id}, i + 1, n, transport).sent, transport);
    }
  }

  /** What ended a batch: the attempt right after the last video sent was
      refused (`Denied`) or failed otherwise (`Failed`). */
  predicate StopCaused(sid: SubId, i: nat, b: BatchResult, transport: Transport) {
    && (b.stop == Denied ==> transport(sid, i + |b.sent|) == Forbidden)
    && (b.stop == Failed ==> transport(sid, i + |b.sent|) == OtherError)
  }

  lemma StopCausedCons(sid: SubId, i: nat, v: Video, rest: BatchResult, transport: Transport)
    requires StopCaused(sid, i + 1, rest, transport)
    ensures StopCaused(sid, i, BatchResult([v] + rest.sent, rest.stop), transport)
  {
    assert i + |[v] + rest.sent| == (i + 1) + |rest.sent|;
  }

  /** A refused or failed attempt is what ended a batch. */
  lemma {:induction false} BatchStopCause(sid: SubId, videos: seq<Video>, posted: set<VideoId>, i: nat, n: nat, transport: Transport)
    requires i <= n
    decreases n - i
    ensures StopCaused(sid, i, Batch(sid, videos, posted, i, n, transport), transport)
  {
    if i < n && NextVideo(videos, posted).Some? && transport(sid, i) == Sent {
      var v := NextVideo(videos, posted).value;
      BatchStopCause(sid, videos, posted + {v.id}, i + 1, n, transport);
      BatchUnfold(sid, videos, posted, i, n, transport, v);
      StopCausedCons(sid, i, v, Batch(sid, videos, posted + {v.id}, i + 1, n, transport), transport);
    }
  }

  /** The ids of a sequence of videos. */
  function Ids(vs: seq<Video>): set<VideoId> {
    set k | 0 <= k < |vs| :: vs[k].id
  }

  /** Each video of `sent` is the next video against `posted` plus the
      videos sent before it: the batch re-selects at every attempt. */
  predicate Greedy(videos: seq<Video>, posted: set<VideoId>, sent: seq<Video>) {
    forall k | 0 <= k < |sent| :: NextVideo(videos, posted + Ids(sent[..k])) == Some(sent[k])
  }

  /** The videos sent before position `k` of `[v] + rest`, for `k >= 1`. */
  lemma IdsConsPrefix(v: Video, rest: seq<Video>, k: nat)
    requires 1 <= k <= |rest| + 1
    ensures Ids(([v] + rest)[..k]) == {v.id} + Ids(rest[..k - 1])
  {
    assert ([v] + rest)[..k] == [v] + rest[..k - 1];
    IdsCons(v, rest[..k - 1]);
  }

  /** Position `k >= 1` of `[v] + rest` sees what position `k - 1` of
      `rest` sees once `v` counts as posted. */
  lemma GreedyConsAt(videos: seq<Video>, posted: set<VideoId>, v: Video, rest: seq<Video>, k: nat)
    requires 1 <= k <= |rest|
    requires NextVideo(videos, (posted + {v.id}) + Ids(rest[..k - 1])) == Some(rest[k - 1])
    ensures NextVideo(videos, posted + Ids(([v] + rest)[..k])) == Some(([v] + rest)[k])
  {
    IdsConsPrefix(v, rest, k);
    assert posted + Ids(([v] + rest)[..k]) == (posted + {v.id}) + Ids(rest[..k - 1]);
  }

  lemma GreedyHead(videos: seq<Video>, posted: set<VideoId>, v: Video, rest: seq<Video>)
    requires NextVideo(videos, posted) == Some(v)
    ensures NextVideo(videos, posted + Ids(([v] + rest)[..0])) == Some(([v] + rest)[0])
  {
    var sent := [v] + rest;
    assert sent[..0] == [];
    assert Ids(sent[..0]) == {};
    assert posted + Ids(sent[..0]) == posted;
  }

  lemma GreedyTail(videos: seq<Video>, posted: set<VideoId>, v: Video, rest: seq<Video>)
    requires Greedy(videos, posted + {v.id}, rest)
    ensures forall k | 1 <= k < |[v] + rest| :: NextVideo(videos, posted + Ids(([v] + rest)[..k])) == Some(([v] + rest)[k])
  {
    var sent := [v] + rest;
    forall k | 1 <= k < |sent| ensures NextVideo(videos, posted + Ids(sent[..k])) == Some(sent[k]) {
      assert NextVideo(videos, (posted + {v.id}) + Ids(rest[..k - 1])) == Some(rest[k - 1]);
      GreedyConsAt(videos, posted, v, rest, k);
    }
  }

  lemma GreedyCons(videos: seq<Video>, posted: set<VideoId>, v: Video, rest: seq<Video>)
    requires NextVideo(videos, posted) == Some(v)
    requires Greedy(videos, posted + {v.id}, rest)
    ensures Greedy(videos, posted, [v] + rest)
  {
    GreedyHead(videos, posted, v, rest);
    GreedyTail(videos, posted, v, rest);
  }

  /** A batch is what re-selecting the next video before every send yields. */
  lemma {:induction false} BatchGreedy(sid: SubId, videos: seq<Video>, posted: set<VideoId>, i: nat, n: nat, transport: Transport)
    requires i <= n
    decreases n - i
    ensures Greedy(videos, posted, Batch(sid, videos, posted, i, n, transport).sent)
  {
    if i < n && NextVideo(videos, posted).Some? && transport(sid, i) == Sent {
      var v := NextVideo(videos, posted).value;
      BatchGreedy(sid, videos, posted + {v.id}, i + 1, n, transport);
      BatchUnfold(sid, videos, posted, i, n, transport, v);
      GreedyCons(videos, posted, v, Batch(sid, videos, posted + {v.id}, i + 1, n, transport).sent);
    }
  }

  /** Every video of a batch has the lowest `messageId` among the videos
      neither posted before the run nor sent earlier in the batch. */
  lemma BatchPicksLowest(sid: SubId, videos: seq<Video>, posted: set<VideoId>, i: nat, n: nat, transport: Transport)
    requires i <= n
    ensures var b := Batch(sid, videos, posted, i, n, transport);
            forall k | 0 <= k < |b.sent| :: forall w | w in videos && w.id !in posted + Ids(b.sent[..k]) ::
              b.sent[k].messageId <= w.messageId
  {
    var b := Batch(sid, videos, posted, i, n, transport);
    BatchGreedy(sid, videos, posted, i, n, transport);
    forall k | 0 <= k < |b.sent|
      ensures forall w | w in videos && w.id !in posted + Ids(b.sent[..k]) :: b.sent[k].messageId <= w.messageId
    {
      assert NextVideo(videos, posted + Ids(b.sent[..k])) == Some(b.sent[k]);
    }
  }

  /** A batch is sent in ascending `messageId` order, starting from the
      lowest `messageId` among the unposted videos, and each video has the
      lowest `messageId` of those still unsent when it goes out. */
  lemma {:induction false} BatchOrdered(sid: SubId, videos: seq<Video>, posted: set<VideoId>, i: nat, n: nat, transport: Transport)
    requires i <= n
    decreases n - i
    ensures var b := Batch(sid, videos, posted, i, n, transport);
            && (forall k, l | 0 <= k < l < |b.sent| :: b.sent[k].messageId <= b.sent[l].messageId)
            && (|b.sent| > 0 ==> forall w | w in videos && w.id !in posted :: b.sent[0].messageId <= w.messageId)
            && (forall k | 0 <= k < |b.sent| :: forall w | w in videos && w.id !in posted + Ids(b.sent[..k]) ::
                  b.sent[k].messageId <= w.messageId)
  {
    BatchPicksLowest(sid, videos, posted, i, n, transport);
    if i < n && NextVideo(videos, posted).Some? && transport(sid, i) == Sent {
      var v := NextVideo(videos, posted).value;
      BatchOrdered(sid, videos, posted + {v.id}, i + 1, n, transport);
      BatchSound(sid, videos, posted + {v.id}, i + 1, n, transport);
      BatchUnfold(sid, videos, posted, i, n, transport, v);
      var rest := Batch(sid, videos, posted + {v.id}, i + 1, n, transport).sent;
      var sent := [v] + rest;
      forall k | 1 <= k < |sent| ensures sent[k] == rest[k - 1] {}
      forall l | 1 <= l < |sent| ensures v.messageId <= sent[l].messageId {
        assert rest[l - 1] in videos && rest[l - 1].id !in posted;
      }
    }
  }

  /** A batch that ran out of videos leaves none of the pool unposted. */
  lemma {:induction false} BatchExhausted(sid: SubId, videos: seq<Video>, posted: set<VideoId>, i: nat, n: nat, transport: Transport)
    requires i <= n
    decreases n - i
    ensures var b := Batch(sid, videos, posted, i, n, transport);
            b.stop == Exhausted ==> forall w | w in videos :: w.id in posted + Ids(b.sent)
  {
    if i < n && NextVideo(videos, posted).Some? && transport(sid, i) == Sent {
      var v := NextVideo(videos, posted).value;
      BatchExhausted(sid, videos, posted + {v.id}, i + 1, n, transport);
      BatchUnfold(sid, videos, posted, i, n, transport, v);
      IdsCons(v, Batch(sid, videos, posted + {v.id}, i + 1, n, transport).sent);
    }
  }

  lemma IdsCons(v: Video, vs: seq<Video>)
    ensures Ids([v] + vs) == {v.id} + Ids(vs)
  {
    var sent := [v] + vs;
    assert sent[0] == v;
    forall x | x in Ids(vs) ensures x in Ids(sent) {
      var k :| 0 <= k < |vs| && vs[k].id == x;
      assert sent[k + 1] == vs[k];
    }
    forall x | x in Ids(sent) ensures x in {v.id} + Ids(vs) {
      var k :| 0 <= k < |sent| && sent[k].id == x;
      if k > 0 {
        assert sent[k] == vs[k - 1];
      }
    }
  }

  /** The history lines recording that `sent` went to `sid` at `now`. */
  function Records(sid: SubId, sent: seq<Video>, now: Time): (r: seq<PostRecord>)
    ensures |r| == |sent|
    ensures forall k | 0 <= k < |r| :: r[k] == PostRecord(sid, sent[k].id, now)
  {
    seq(|sent|, k requires 0 <= k < |sent| => PostRecord(sid, sent[k].id, now))
  }

  /** All subscriptions' batches, each computed against the same history. */
  function Isolated(subs: seq<Subscription>, videos: seq<Video>, history: seq<PostRecord>,
                    n: nat, transport: Transport, now: Time): (r: RunOutcome)
    decreases |subs|
  {
    if |subs| == 0 then RunOutcome([], [])
    else
      var b := Batch(subs[0].id, videos, Posted(history, subs[0].id), 0, n, transport);
      var rest := Isolated(subs[1..], videos, history, n, transport, now);
      RunOutcome(Records(subs[0].id, b.sent, now) + rest.records, AlertFor(subs[0], b.stop) + rest.alerts)
  }

  // ---------------------------------------------------------------------
  // The loops agree with the reference

  lemma RecordsCons(sid: SubId, v: Video, vs: seq<Video>, now: Time)
    ensures Records(sid, [v] + vs, now) == [PostRecord(sid, v.id, now)] + Records(sid, vs, now)
  {
  }

  /** A successful send: the loop records the next video and carries on. */
  lemma PostVideosUnfold(s: Store, sub: Subscription, i: nat, n: nat, transport: Transport, now: Time, v: Video)
    requires i < n && GetNextVideoForSub(s, sub.id) == Some(v) && transport(sub.id, i) == Sent
    ensures PostVideos(s, sub, i, n, transport, now) == PostVideos(RecordPost(s, sub.id, v.id, now), sub, i + 1, n, transport, now)
  {
  }

  /** A successful send: the batch is the next video followed by the rest. */
  lemma BatchUnfold(sid: SubId, videos: seq<Video>, posted: set<VideoId>, i: nat, n: nat, transport: Transport, v: Video)
    requires i < n && NextVideo(videos, posted) == Some(v) && transport(sid, i) == Sent
    ensures var rest := Batch(sid, videos, posted + {v.id}, i + 1, n, transport);
            Batch(sid, videos, posted, i, n, transport) == BatchResult([v] + rest.sent, rest.stop)
  {
  }

  /** Appending a video's line and then the rest's lines appends the lines of both. */
  lemma RecordsAppend(h: seq<PostRecord>, sid: SubId, v: Video, vs: seq<Video>, now: Time)
    ensures (h + [PostRecord(sid, v.id, now)]) + Records(sid, vs, now) == h + Records(sid, [v] + vs, now)
  {
    RecordsCons(sid, v, vs, now);
    assert (h + [PostRecord(sid, v.id, now)]) + Records(sid, vs, now) == h + ([PostRecord(sid, v.id, now)] + Records(sid, vs, now));
  }

  /** The loop's step for a successful send: recording the video and
      continuing equals prepending it to the rest of the reference batch. */
  lemma PostVideosStep(s: Store, sub: Subscription, i: nat, n: nat, transport: Transport, now: Time, v: Video)
    requires i < n && NextVideo(s.videos, Posted(s.history, sub.id)) == Some(v) && transport(sub.id, i) == Sent
    requires var s1 := RecordPost(s, sub.id, v.id, now);
             var b1 := Batch(sub.id, s1.videos, Posted(s1.history, sub.id), i + 1, n, transport);
             PostVideos(s1, sub, i + 1, n, transport, now) == (s1.(history := s1.history + Records(sub.id, b1.sent, now)), b1.stop)
    ensures var b := Batch(sub.id, s.videos, Posted(s.history, sub.id), i, n, transport);
            PostVideos(s, sub, i, n, transport, now) == (s.(history := s.history + Records(sub.id, b.sent, now)), b.stop)
  {
    var posted := Posted(s.history, sub.id);
    var s1 := RecordPost(s, sub.id, v.id, now);
    RecordPostPosted(s, sub.id, v.id, now);
    PostVideosUnfold(s, sub, i, n, transport, now, v);
    BatchUnfold(sub.id, s.videos, posted, i, n, transport, v);
    var rest := Batch(sub.id, s.videos, posted + {v.id}, i + 1, n, transport);
    RecordsAppend(s.history, sub.id, v, rest.sent, now);
  }

  /** One subscription's inner loop appends exactly the reference batch. */
  lemma {:induction false} PostVideosIsBatch(s: Store, sub: Subscription, i: nat, n: nat, transport: Transport, now: Time)
    requires i <= n
    decreases n - i
    ensures var b := Batch(sub.id, s.videos, Posted(s.history, sub.id), i, n, transport);
            PostVideos(s, sub, i, n, transport, now) == (s.(history := s.history + Records(sub.id, b.sent, now)), b.stop)
  {
    var posted := Posted(s.history, sub.id);
    if i < n && NextVideo(s.videos, posted).Some? && transport(sub.id, i) == Sent {
      var v := NextVideo(s.videos, posted).value;
      PostVideosIsBatch(RecordPost(s, sub.id, v.id, now), sub, i + 1, n, transport, now);
      PostVideosStep(s, sub, i, n, transport, now, v);
    } else {
      assert s.history + [] == s.history;
    }
  }

  /** Lines of other subscriptions do not change what `sid` has been sent. */
  lemma PostedAppendOther(h: seq<PostRecord>, recs: seq<PostRecord>, sid: SubId)
    requires forall k | 0 <= k < |recs| :: recs[k].subId != sid
    ensures Posted(h + recs, sid) == Posted(h, sid)
  {
    forall x | x in Posted(h, sid) ensures x in Posted(h + recs, sid) {
      var k :| 0 <= k < |h| && h[k].subId == sid && h[k].videoId == x;
      assert (h + recs)[k] == h[k];
    }
  }

  /** The reference depends on the history only through each listed
      subscription's posted set. */
  lemma {:induction false} IsolatedFrame(subs: seq<Subscription>, videos: seq<Video>, h1: seq<PostRecord>, h2: seq<PostRecord>,
                                         n: nat, transport: Transport, now: Time)
    requires forall j | 0 <= j < |subs| :: Posted(h1, subs[j].id) == Posted(h2, subs[j].id)
    ensures Isolated(subs, videos, h1, n, transport, now) == Isolated(subs, videos, h2, n, transport, now)
    decreases |subs|
  {
    if |subs| > 0 {
      IsolatedFrame(subs[1..], videos, h1, h2, n, transport, now);
    }
  }

  lemma PostToSubscriptionsUnfold(s: Store, subs: seq<Subscription>, n: nat, transport: Transport, now: Time)
    requires |subs| > 0
    ensures var first := PostVideos(s, subs[0], 0, n, transport, now);
            var rest := PostToSubscriptions(first.0, subs[1..], n, transport, now);
            PostToSubscriptions(s, subs, n, transport, now) == (rest.0, AlertFor(subs[0], first.1) + rest.1)
  {
  }

  lemma IsolatedUnfold(subs: seq<Subscription>, videos: seq<Video>, h: seq<PostRecord>, n: nat, transport: Transport, now: Time)
    requires |subs| > 0
    ensures var b := Batch(subs[0].id, videos, Posted(h, subs[0].id), 0, n, transport);
            var rest := Isolated(subs[1..], videos, h, n, transport, now);
            Isolated(subs, videos, h, n, transport, now)
              == RunOutcome(Records(subs[0].id, b.sent, now) + rest.records, AlertFor(subs[0], b.stop) + rest.alerts)
  {
  }

  lemma DistinctTail(subs: seq<Subscription>)
    requires |subs| > 0 && DistinctIds(subs)
    ensures DistinctIds(subs[1..])
    ensures forall j | 0 <= j < |subs[1..]| :: subs[1..][j].id != subs[0].id
  {
    forall j | 0 <= j < |subs[1..]| ensures subs[1..][j] == subs[j + 1] {}
  }

  /** Appending the first subscription's lines leaves the reference run over
      the other subscriptions as it was. */
  lemma TailFrame(subs: seq<Subscription>, videos: seq<Video>, h: seq<PostRecord>, recs: seq<PostRecord>,
                  n: nat, transport: Transport, now: Time)
    requires |subs| > 0 && DistinctIds(subs)
    requires forall k | 0 <= k < |recs| :: recs[k].subId == subs[0].id
    ensures Isolated(subs[1..], videos, h + recs, n, transport, now) == Isolated(subs[1..], videos, h, n, transport, now)
  {
    DistinctTail(subs);
    forall j | 0 <= j < |subs[1..]|
      ensures Posted(h + recs, subs[1..][j].id) == Posted(h, subs[1..][j].id)
    {
      PostedAppendOther(h, recs, subs[1..][j].id);
    }
    IsolatedFrame(subs[1..], videos, h + recs, h, n, transport, now);
  }

  lemma AppendAssoc<T>(a: seq<T>, b: seq<T>, c: seq<T>)
    ensures (a + b) + c == a + (b + c)
  {
  }

  /** Failure isolation: the run over distinct subscriptions appends exactly
      what each subscription's batch would append on its own against the
      history as it was before the run, and raises exactly their alerts. */
  lemma {:induction false} RunIsIsolated(s: Store, subs: seq<Subscription>, n: nat, transport: Transport, now: Time)
    requires DistinctIds(subs)
    decreases |subs|
    ensures var iso := Isolated(subs, s.videos, s.history, n, transport, now);
            PostToSubscriptions(s, subs, n, transport, now) == (s.(history := s.history + iso.records), iso.alerts)
  {
    if |subs| == 0 {
      assert s.history + [] == s.history;
    } else {
      var b := Batch(subs[0].id, s.videos, Posted(s.history, subs[0].id), 0, n, transport);
      var recs := Records(subs[0].id, b.sent, now);
      var s1 := s.(history := s.history + recs);
      PostVideosIsBatch(s, subs[0], 0, n, transport, now);
      PostToSubscriptionsUnfold(s, subs, n, transport, now);
      DistinctTail(subs);
      RunIsIsolated(s1, subs[1..], n, transport, now);
      TailFrame(subs, s.videos, s.history, recs, n, transport, now);
      IsolatedUnfold(subs, s.videos, s.history, n, transport, now);
      AppendAssoc(s.history, recs, Isolated(subs[1..], s.videos, s.history, n, transport, now).records);
    }
  }

  // ---------------------------------------------------------------------
  // Properties of the reference

  lemma {:induction false} RecordsFor(sid: SubId, sent: seq<Video>, now: Time, other: SubId)
    ensures HistoryFor(Records(sid, sent, now), other) == if sid == other then Records(sid, sent, now) else []
  {
    if |sent| > 0 {
      var r := Records(sid, sent, now);
      assert r[1..] == Records(sid, sent[1..], now);
      RecordsFor(sid, sent[1..], now, other);
    }
  }

  /** Subscription `sid` is among `subs`. */
  predicate Listed(subs: seq<Subscription>, sid: SubId) {
    exists k | 0 <= k < |subs| :: subs[k].id == sid
  }

  lemma ListedCons(subs: seq<Subscription>, sid: SubId)
    requires |subs| > 0
    ensures Listed(subs, sid) <==> subs[0].id == sid || Listed(subs[1..], sid)
  {
    if Listed(subs, sid) && subs[0].id != sid {
      var k :| 0 <= k < |subs| && subs[k].id == sid;
      assert subs[1..][k - 1] == subs[k];
    }
    if Listed(subs[1..], sid) {
      var k :| 0 <= k < |subs[1..]| && subs[1..][k].id == sid;
      assert subs[k + 1] == subs[1..][k];
    }
  }

  /** In the reference run a listed subscription receives exactly its own
      batch, and a subscription that is not listed receives nothing. */
  lemma {:induction false} IsolatedFor(subs: seq<Subscription>, videos: seq<Video>, h: seq<PostRecord>,
                                       n: nat, transport: Transport, now: Time, sid: SubId)
    requires DistinctIds(subs)
    decreases |subs|
    ensures var recs := Isolated(subs, videos, h, n, transport, now).records;
            HistoryFor(recs, sid) ==
              if Listed(subs, sid) then Records(sid, Batch(sid, videos, Posted(h, sid), 0, n, transport).sent, now) else []
  {
    if |subs| > 0 {
      var b := Batch(subs[0].id, videos, Posted(h, subs[0].id), 0, n, transport);
      var rest := Isolated(subs[1..], videos, h, n, transport, now);
      IsolatedUnfold(subs, videos, h, n, transport, now);
      HistoryForAppend(Records(subs[0].id, b.sent, now), rest.records, sid);
      RecordsFor(subs[0].id, b.sent, now, sid);
      DistinctTail(subs);
      IsolatedFor(subs[1..], videos, h, n, transport, now, sid);
      ListedCons(subs, sid);
      if subs[0].id == sid {
        assert !Listed(subs[1..], sid);
      }
    }
  }

  /** A batch does not repeat a video already posted or within itself, so
      appending it keeps the history free of repeats. */
  lemma AppendBatchNoRepeat(h: seq<PostRecord>, sid: SubId, sent: seq<Video>, now: Time)
    requires NoRepeat(h)
    requires forall k | 0 <= k < |sent| :: sent[k].id !in Posted(h, sid)
    requires forall k, l | 0 <= k < l < |sent| :: sent[k].id != sent[l].id
    ensures NoRepeat(h + Records(sid, sent, now))
  {
    var r := Records(sid, sent, now);
    var g := h + r;
    forall i, j | 0 <= i < j < |g| && g[i].subId == g[j].subId
      ensures g[i].videoId != g[j].videoId
    {
      if j < |h| {
        assert g[i] == h[i] && g[j] == h[j];
      } else if i < |h| {
        assert g[i] == h[i] && g[j] == r[j - |h|];
        assert h[i].videoId in Posted(h, sid);
      } else {
        assert g[i] == r[i - |h|] && g[j] == r[j - |h|];
      }
    }
  }

  /** The reference run never sends a subscription a video twice. */
  lemma {:induction false} IsolatedNoRepeat(subs: seq<Subscription>, videos: seq<Video>, h: seq<PostRecord>,
                                            n: nat, transport: Transport, now: Time)
    requires DistinctIds(subs)
    requires NoRepeat(h)
    decreases |subs|
    ensures NoRepeat(h + Isolated(subs, videos, h, n, transport, now).records)
  {
    if |subs| > 0 {
      var b := Batch(subs[0].id, videos, Posted(h, subs[0].id), 0, n, transport);
      var recs := Records(subs[0].id, b.sent, now);
      BatchSound(subs[0].id, videos, Posted(h, subs[0].id), 0, n, transport);
      AppendBatchNoRepeat(h, subs[0].id, b.sent, now);
      DistinctTail(subs);
      TailFrame(subs, videos, h, recs, n, transport, now);
      IsolatedNoRepeat(subs[1..], videos, h + recs, n, transport, now);
      IsolatedUnfold(subs, videos, h, n, transport, now);
      AppendAssoc(h, recs, Isolated(subs[1..], videos, h, n, transport, now).records);
    }
  }

  /** Subscription `sub`'s own batch ended with its channel refusing the bot. */
  predicate Refused(sub: Subscription, videos: seq<Video>, h: seq<PostRecord>, n: nat, transport: Transport) {
    Batch(sub.id, videos, Posted(h, sub.id), 0, n, transport).stop == Denied
  }

  /** Every refused subscription of `subs` has its alert in `alerts`. */
  predicate AlertsCover(subs: seq<Subscription>, videos: seq<Video>, h: seq<PostRecord>, n: nat,
                        transport: Transport, alerts: seq<Alert>) {
    forall k | 0 <= k < |subs| && Refused(subs[k], videos, h, n, transport) ::
      Alert(subs[k].userId, subs[k].channelId) in alerts
  }

  /** Every alert in `alerts` is the alert of a refused subscription of `subs`. */
  predicate AlertsJustified(subs: seq<Subscription>, videos: seq<Video>, h: seq<PostRecord>, n: nat,
                            transport: Transport, alerts: seq<Alert>) {
    forall a | a in alerts :: exists k | 0 <= k < |subs| ::
      Refused(subs[k], videos, h, n, transport) && a == Alert(subs[k].userId, subs[k].channelId)
  }

  lemma AlertsCoverCons(subs: seq<Subscription>, videos: seq<Video>, h: seq<PostRecord>, n: nat,
                        transport: Transport, rest: seq<Alert>)
    requires |subs| > 0 && AlertsCover(subs[1..], videos, h, n, transport, rest)
    ensures AlertsCover(subs, videos, h, n, transport,
                        AlertFor(subs[0], Batch(subs[0].id, videos, Posted(h, subs[0].id), 0, n, transport).stop) + rest)
  {
    var all := AlertFor(subs[0], Batch(subs[0].id, videos, Posted(h, subs[0].id), 0, n, transport).stop) + rest;
    forall k | 0 <= k < |subs| && Refused(subs[k], videos, h, n, transport)
      ensures Alert(subs[k].userId, subs[k].channelId) in all
    {
      if k > 0 {
        assert subs[k] == subs[1..][k - 1];
      }
    }
  }

  lemma AlertsJustifiedCons(subs: seq<Subscription>, videos: seq<Video>, h: seq<PostRecord>, n: nat,
                            transport: Transport, rest: seq<Alert>)
    requires |subs| > 0 && AlertsJustified(subs[1..], videos, h, n, transport, rest)
    ensures AlertsJustified(subs, videos, h, n, transport,
                            AlertFor(subs[0], Batch(subs[0].id, videos, Posted(h, subs[0].id), 0, n, transport).stop) + rest)
  {
    var tail := subs[1..];
    forall a | a in rest
      ensures exists k | 0 <= k < |subs| ::
                Refused(subs[k], videos, h, n, transport) && a == Alert(subs[k].userId, subs[k].channelId)
    {
      var k :| 0 <= k < |tail| && Refused(tail[k], videos, h, n, transport) && a == Alert(tail[k].userId, tail[k].channelId);
      assert tail[k] == subs[k + 1];
    }
  }

  /** A subscription is alerted exactly when its own batch was refused. */
  lemma {:induction false} IsolatedAlerts(subs: seq<Subscription>, videos: seq<Video>, h: seq<PostRecord>,
                                          n: nat, transport: Transport, now: Time)
    decreases |subs|
    ensures var alerts := Isolated(subs, videos, h, n, transport, now).alerts;
            && AlertsCover(subs, videos, h, n, transport, alerts)
            && AlertsJustified(subs, videos, h, n, transport, alerts)
  {
    if |subs| > 0 {
      var rest := Isolated(subs[1..], videos, h, n, transport, now).alerts;
      IsolatedAlerts(subs[1..], videos, h, n, transport, now);
      IsolatedUnfold(subs, videos, h, n, transport, now);
      AlertsCoverCons(subs, videos, h, n, transport, rest);
      AlertsJustifiedCons(subs, videos, h, n, transport, rest);
    }
  }

  function UnpostedIds(videos: seq<Video>, posted: set<VideoId>): set<VideoId> {
    set w | w in videos && w.id !in posted :: w.id
  }

  function Min(a: int, b: int): int { if a <= b then a else b }

  /** When every send succeeds, a batch is as large as the cap and the
      supply of unposted videos allow. */
  lemma {:induction false} FullBatch(sid: SubId, videos: seq<Video>, posted: set<VideoId>, i: nat, n: nat, transport: Transport)
    requires i <= n
    requires forall j | i <= j < n :: transport(sid, j) == Sent
    decreases n - i
    ensures |Batch(sid, videos, posted, i, n, transport).sent| == Min(n - i, |UnpostedIds(videos, posted)|)
  {
    if i < n {
      match NextVideo(videos, posted)
      case None =>
        assert UnpostedIds(videos, posted) == {};
      case Some(v) =>
        assert v.id in UnpostedIds(videos, posted);
        assert UnpostedIds(videos, posted + {v.id}) == UnpostedIds(videos, posted) - {v.id};
        FullBatch(sid, videos, posted + {v.id}, i + 1, n, transport);
    }
  }

  /** A batch depends on the transport only through its own subscription's outcomes. */
  lemma {:induction false} BatchOwnOutcomes(sid: SubId, videos: seq<Video>, posted: set<VideoId>, i: nat, n: nat,
                                            t1: Transport, t2: Transport)
    requires i <= n
    requires forall j :: t1(sid, j) == t2(sid, j)
    decreases n - i
    ensures Batch(sid, videos, posted, i, n, t1) == Batch(sid, videos, posted, i, n, t2)
  {
    if i < n {
      match NextVideo(videos, posted)
      case None =>
      case Some(v) =>
        BatchOwnOutcomes(sid, videos, posted + {v.id}, i + 1, n, t1, t2);
    }
  }

  // ---------------------------------------------------------------------
  // Properties of the job

  /** After a gate-passing run, the history grew by the reference run over
      the active subscriptions, and the alerts are its alerts. */
  lemma JobIsIsolated(s: Store, now: Time, finish: Time, transport: Transport)
    requires s.settings.Some? && IntervalElapsed(s.settings.value, now)
    ensures var iso := Isolated(ActiveSubscriptions(s), s.videos, s.history, BatchSize(s.settings.value), transport, now);
            && DailyPostJob(s, now, finish, transport).store.history == s.history + iso.records
            && DailyPostJob(s, now, finish, transport).alerts == iso.alerts
  {
    RunIsIsolated(s, ActiveSubscriptions(s), BatchSize(s.settings.value), transport, now);
  }

  /** With distinct ids in the store, the run lists a subscription exactly
      when it is stored and active. */
  lemma ListedIffActive(s: Store, sid: SubId)
    requires SubscriptionsValid(s)
    ensures Listed(ActiveSubscriptions(s), sid) <==> sid in s.subscriptions && s.subscriptions[sid].status == Active
  {
    var subs := ActiveSubscriptions(s);
    if sid in s.subscriptions && s.subscriptions[sid].status == Active {
      assert s.subscriptions[sid] in subs;
      var k :| 0 <= k < |subs| && subs[k] == s.subscriptions[sid];
      assert subs[k].id == sid;
    }
  }

  /** The lines one run adds for subscription `sid`: its own batch if it is
      active, nothing otherwise. */
  lemma JobAddsFor(s: Store, now: Time, finish: Time, transport: Transport, sid: SubId)
    requires SubscriptionsValid(s)
    ensures var h := DailyPostJob(s, now, finish, transport).store.history;
            && (s.settings.None? || !IntervalElapsed(s.settings.value, now) ==> HistoryFor(h, sid) == HistoryFor(s.history, sid))
            && (s.settings.Some? && IntervalElapsed(s.settings.value, now) ==>
                  HistoryFor(h, sid) == HistoryFor(s.history, sid) +
                    if sid in s.subscriptions && s.subscriptions[sid].status == Active
                    then Records(sid, Batch(sid, s.videos, Posted(s.history, sid), 0, BatchSize(s.settings.value), transport).sent, now)
                    else [])
  {
    if s.settings.Some? && IntervalElapsed(s.settings.value, now) {
      var subs := ActiveSubscriptions(s);
      var n := BatchSize(s.settings.value);
      JobIsIsolated(s, now, finish, transport);
      var iso := Isolated(subs, s.videos, s.history, n, transport, now);
      HistoryForAppend(s.history, iso.records, sid);
      IsolatedFor(subs, s.videos, s.history, n, transport, now, sid);
      ListedIffActive(s, sid);
    }
  }

  /** Batch cap: one run adds at most `posts_per_run` lines to any
      subscription's history, and none to a subscription that is not active. */
  lemma JobBatchCap(s: Store, now: Time, finish: Time, transport: Transport, sid: SubId)
    requires SubscriptionsValid(s) && s.settings.Some?
    ensures var h := DailyPostJob(s, now, finish, transport).store.history;
            && |HistoryFor(h, sid)| <= |HistoryFor(s.history, sid)| + BatchSize(s.settings.value)
            && (!(sid in s.subscriptions && s.subscriptions[sid].status == Active) ==> HistoryFor(h, sid) == HistoryFor(s.history, sid))
  {
    JobAddsFor(s, now, finish, transport, sid);
  }

  /** No repeats: a run keeps the store valid, so no subscription is ever
      sent a video twice, within or across runs. */
  lemma JobPreservesValid(s: Store, now: Time, finish: Time, transport: Transport)
    requires Valid(s)
    ensures Valid(DailyPostJob(s, now, finish, transport).store)
  {
    if s.settings.Some? && IntervalElapsed(s.settings.value, now) {
      var subs := ActiveSubscriptions(s);
      JobIsIsolated(s, now, finish, transport);
      IsolatedNoRepeat(subs, s.videos, s.history, BatchSize(s.settings.value), transport, now);
    }
  }

  /** Failures are contained: what one subscription receives depends only on
      its own send outcomes, never on how the sends to others went. */
  lemma JobFailureContained(s: Store, now: Time, finish: Time, t1: Transport, t2: Transport, sid: SubId)
    requires SubscriptionsValid(s)
    requires forall j :: t1(sid, j) == t2(sid, j)
    ensures HistoryFor(DailyPostJob(s, now, finish, t1).store.history, sid)
         == HistoryFor(DailyPostJob(s, now, finish, t2).store.history, sid)
  {
    JobAddsFor(s, now, finish, t1, sid);
    JobAddsFor(s, now, finish, t2, sid);
    if s.settings.Some? {
      BatchOwnOutcomes(sid, s.videos, Posted(s.history, sid), 0, BatchSize(s.settings.value), t1, t2);
    }
  }

  /** With every send to an active subscription succeeding, it receives
      `min(posts_per_run, number of unposted videos)` videos. */
  lemma JobFullBatch(s: Store, now: Time, finish: Time, transport: Transport, sid: SubId)
    requires Valid(s) && s.settings.Some? && IntervalElapsed(s.settings.value, now)
    requires sid in s.subscriptions && s.subscriptions[sid].status == Active
    requires forall j :: transport(sid, j) == Sent
    ensures |HistoryFor(DailyPostJob(s, now, finish, transport).store.history, sid)|
         == |HistoryFor(s.history, sid)| + Min(BatchSize(s.settings.value), |UnpostedIds(s.videos, Posted(s.history, sid))|)
  {
    JobAddsFor(s, now, finish, transport, sid);
    FullBatch(sid, s.videos, Posted(s.history, sid), 0, BatchSize(s.settings.value), transport);
  }

  /** An active subscription whose channel refuses the bot gets an alert,
      and every alert is for such a subscription. */
  lemma JobAlerts(s: Store, now: Time, finish: Time, transport: Transport)
    requires s.settings.Some? && IntervalElapsed(s.settings.value, now)
    ensures var subs := ActiveSubscriptions(s);
            var n := BatchSize(s.settings.value);
            var alerts := DailyPostJob(s, now, finish, transport).alerts;
            && AlertsCover(subs, s.videos, s.history, n, transport, alerts)
            && AlertsJustified(subs, s.videos, s.history, n, transport, alerts)
  {
    JobIsIsolated(s, now, finish, transport);
    IsolatedAlerts(ActiveSubscriptions(s), s.videos, s.history, BatchSize(s.settings.value), transport, now);
  }

  /** Polling is idempotent: after a run that finished at `finish`, a run
      started before the interval has elapsed again changes nothing. */
  lemma JobPollingIdempotent(s: Store, now: Time, finish: Time, transport: Transport,
                             later: Time, finish2: Time, transport2: Transport)
    requires s.settings.Some? && IntervalElapsed(s.settings.value, now)
    requires (later - finish) as real < IntervalHours(s.settings.value) * SecondsPerHour as real
    ensures var s1 := DailyPostJob(s, now, finish, transport).store;
            DailyPostJob(s1, later, finish2, transport2) == JobResult(s1, [])
  {
  }
}

=== FILE: text.dfy ===
/** The small amount of Python string behaviour the bot relies on:
    `str.strip()`, `str.isdigit()` on ASCII digits, `int(...)` of a digit
    string and `str(int)` for decimal formatting. */
module Text {

  /** Python's `str.isspace()` for a single character: the ASCII whitespace
      characters, the information separators 0x1C-0x1F, NEL, NBSP and the
      Unicode space separators, line and paragraph separators. */
  predicate IsSpace(c: char) {
    || c == ' ' || c == '\t' || c == '\n' || c == '\r'
    || c == '\U{0B}' || c == '\U{0C}'
    || ('\U{1C}' <= c <= '\U{1F}')
    || c == '\U{85}' || c == '\U{A0}' || c == '\U{1680}'
    || ('\U{2000}' <= c <= '\U{200A}')
    || c == '\U{2028}' || c == '\U{2029}' || c == '\U{202F}'
    || c == '\U{205F}' || c == '\U{3000}'
  }

  /** Drops leading whitespace. */
  function StripLeft(s: string): (r: string)
    ensures |r| <= |s| && r == s[|s| - |r|..]
    ensures forall i | 0 <= i < |s| - |r| :: IsSpace(s[i])
    ensures |r| > 0 ==> !IsSpace(r[0])
  {
    if |s| > 0 && IsSpace(s[0]) then StripLeft(s[1..]) else s
  }

  /** Drops trailing whitespace. */
  function StripRight(s: string): (r: string)
    ensures |r| <= |s| && r == s[..|r|]
    ensures forall i | |r| <= i < |s| :: IsSpace(s[i])
    ensures |r| > 0 ==> !IsSpace(r[|r| - 1])
  {
    if |s| > 0 && IsSpace(s[|s| - 1]) then StripRight(s[..|s| - 1]) else s
  }

  /** Python's `s.strip()`: the longest infix of `s` that neither starts nor
      ends with whitespace, everything cut away being whitespace. */
  function Strip(s: string): (r: string)
    ensures |r| > 0 ==> !IsSpace(r[0]) && !IsSpace(r[|r| - 1])
    ensures |r| <= |s|
  {
    StripRight(StripLeft(s))
  }

  /** `Strip(s)` is the infix of `s` starting at `i`, and everything cut on
      either side is whitespace. */
  lemma StripTrimsInfix(s: string) returns (i: nat)
    ensures i + |Strip(s)| <= |s|
    ensures Strip(s) == s[i..i + |Strip(s)|]
    ensures forall k | 0 <= k < i :: IsSpace(s[k])
    ensures forall k | i + |Strip(s)| <= k < |s| :: IsSpace(s[k])
  {
    var t := StripLeft(s);
    var r := StripRight(t);
    i := |s| - |t|;
    SliceOfSuffix(s, i, |r|);
    forall k | i + |r| <= k < |s| ensures IsSpace(s[k]) {
      assert s[k] == t[k - i];
    }
  }

  lemma SliceOfSuffix(s: string, i: nat, m: nat)
    requires i + m <= |s|
    ensures s[i..][..m] == s[i..i + m]
  {
  }

  /** A string with no surrounding whitespace is left as it is. */
  lemma StripKeepsTrimmed(s: string)
    requires |s| > 0 ==> !IsSpace(s[0]) && !IsSpace(s[|s| - 1])
    ensures Strip(s) == s
  {
  }

  /** Stripping twice is stripping once. */
  lemma StripIdempotent(s: string)
    ensures Strip(Strip(s)) == Strip(s)
  {
    StripKeepsTrimmed(Strip(s));
  }

  predicate IsDigit(c: char) {
    '0' <= c <= '9'
  }

  predicate AllDigits(s: string) {
    forall i | 0 <= i < |s| :: IsDigit(s[i])
  }

  /** Python's `s.isdigit()`, restricted to ASCII digits: true only for a
      non-empty string of digits. */
  predicate IsDigitString(s: string) {
    |s| > 0 && AllDigits(s)
  }

  function DigitValue(c: char): (d: nat)
    requires IsDigit(c)
    ensures d < 10
  {
    c as int - '0' as int
  }

  function DigitChar(d: nat): (c: char)
    requires d < 10
    ensures IsDigit(c) && DigitValue(c) == d
  {
    ('0' as int + d) as char
  }

  /** Python's `int(s)` for a string of ASCII digits. */
  function DigitsValue(s: string): nat
    requires AllDigits(s)
  {
    if |s| == 0 then 0 else DigitsValue(s[..|s| - 1]) * 10 + DigitValue(s[|s| - 1])
  }

  /** Python's `str(n)` for a natural number: decimal digits, no leading zero. */
  function NatToString(n: nat): (s: string)
    ensures IsDigitString(s)
    ensures s[0] == '0' ==> |s| == 1
  {
    if n < 10 then [DigitChar(n)] else NatToString(n / 10) + [DigitChar(n % 10)]
  }

  /** Python's `str(i)` (and f-string formatting) for any integer. */
  function IntToString(i: int): (s: string)
    ensures |s| > 0
    ensures i < 0 <==> s[0] == '-'
  {
    if i < 0 then "-" + NatToString(-i) else NatToString(i)
  }

  /** Reading back a formatted number gives the number: `int(str(n)) == n`. */
  lemma {:induction false} DigitsOfNat(n: nat)
    ensures DigitsValue(NatToString(n)) == n
  {
    if n >= 10 {
      var s := NatToString(n);
      assert s[..|s| - 1] == NatToString(n / 10);
      DigitsOfNat(n / 10);
    }
  }

  /** A digit string whose first digit is not '0' has a positive value. */
  lemma {:induction false} LeadingDigitPositive(s: string)
    requires IsDigitString(s) && s[0] != '0'
    ensures DigitsValue(s) >= 1
  {
    if |s| > 1 {
      LeadingDigitPositive(s[..|s| - 1]);
    }
  }

  /** Formatting the value of a canonical digit string gives the string back:
      `str(int(s)) == s` when `s` has no leading zero. */
  lemma {:induction false} NatOfDigits(s: string)
    requires IsDigitString(s)
    requires s[0] == '0' ==> |s| == 1
    ensures NatToString(DigitsValue(s)) == s
  {
    if |s| > 1 {
      var p := s[..|s| - 1];
      LeadingDigitPositive(p);
      NatOfDigits(p);
      var v := DigitsValue(s);
      assert v == DigitsValue(p) * 10 + DigitValue(s[|s| - 1]);
      assert v / 10 == DigitsValue(p) && v % 10 == DigitValue(s[|s| - 1]);
      assert s == p + [s[|s| - 1]];
    }
  }
}
